=== FILE: README.md ===
# Tour booking core: conflict check, review-request selection, validators and write handlers

This project models the decision logic of a tour-booking backend in Dafny. Guides publish tours, users reserve them, and a periodic task picks the reservations that should get a review request. The model covers four pieces:

- **Interval conflict predicate** (`Intervals`). This is `are_intersecting` from `utils.py`. It turns a tour's fractional-hour duration into an offset and runs a symmetric closed-endpoint overlap test. The offset is `floor(d)` hours plus `d % 1` *minutes*, so 1.5 hours becomes 60.5 minutes. The model keeps that arithmetic exactly. It also states the intended conversion (`d * 60`) and proves how the two relate.
- **Review-request selection** (`Tasks`). This is the MongoDB aggregation pipeline of `get_non_notified_reservations`, together with the union and dispatch loop of `request_review` in `src/tasks.py`. Each pipeline stage is a function over the reservations collection in scan order, joined against the tours map. `SelectedIds` is a one-pass reference for the same selection, and `PipelineIsFilter` proves that the staged pipeline and the reference compute the same thing.
- **Field validators and record defaults** (`Models`, `Utils`). These are the pydantic validators of `src/models.py`, the record shapes of both versions, and `verify_id`, `validate_email` and `normalize_id`. The validators of `models.py` are line-for-line copies of those in `src/models.py` and are defined once.
- **Write handlers** (`Handlers` for `src/main.py`, `LegacyHandlers` for `main.py`). Each handler is a function from a store value to a `Response`: the store after the request, plus the new id or the error. A store is a record of maps from ids to documents. The handlers carry check-ordering, error-result and "nothing else changes" postconditions. `Api` holds what the two versions share: errors, the single-insert relation, `create_tour`, and the conflict loop of `reserve_tour`.

Time is exact. Instants are `real` minutes since an epoch, and durations are `real` hours. One hour is 60 minutes and one week is 10080 minutes.

Where the code and its comments disagree, the model follows the intent that the comments and names state, as listed here:

- The pipeline compares each review-request timestamp with `date + duration + offset`, as the comments at `src/tasks.py:34-41` describe. As written, the `$date` and `$reservation_date` references inside `$filter` would not do that in MongoDB.
- The `$lookup` joins a reservation's `tour_id` to the tour's `_id` as equal ids.
- The docstring SQL at `src/tasks.py:115-128` is not modelled, because the pipeline uses a different eligibility test.
- In the pipeline, the selection for the one-hour offset is **contained in** the selection for the one-week offset. A later threshold is harder to cover. So the union taken at `src/tasks.py:133` equals the week selection, and `ReviewTargets` states exactly that.
- `are_intersecting` reads `tour.date`, but stored tours carry `dates`. The handlers therefore take the reading of a tour's start instant as a parameter, `tourDate`. The conflict check compares tour records only. The `date` argument of `reserve_tour` is stored and never compared (`Handlers.ReserveIgnoresDate`).
- `verify_id` in `utils.py:28-29` reads `.guide_id` from its argument, and `main.py:49` passes it a tour. `src/main.py:45` and `src/main.py:60` pass id strings (`user_id`, `guide_id`). Those calls import `verify_id` from `src/utils.py`, which is not part of this model. `utils.py`'s version would raise on a string. `Utils.VerifyId` is the 24-hex-digit test applied to the id string in every case. `src/main.py:9` also imports `are_intersecting`, `get_user` and `hash_password` from `src/utils.py`. The src handlers are modelled with the helpers of `utils.py`, on the assumption that `src/utils.py` matches them.
- In `src/main.py:104`, `Reservation(date=..., tour_id=...)` omits `review_id`, which `src/models.py:82` requires. As written, pydantic raises there. The model instead stores the `ReservationInDB` defaults with no review id, which is the shape the scheduler reads (see `Handlers.ReserveTour` under "## Left out").

## Model

The core definitions appear in the table through the lemmas about them. These are `Intervals.AreIntersecting` (`utils.py:32-40`), `Utils.VerifyId` (`utils.py:28-29`), `Utils.ValidateEmail` (`utils.py:24-25`) and `Tasks.NonNotified` (`src/tasks.py:11-72`). The pipeline stage functions carry only length bounds, and their content is stated by `Tasks.PipelineIsFilter`.

| member | source | states |
|---|---|---|
| Intervals.OffsetVersusHours | utils.py:33-36 | The offset `floor(d)*60 + (d mod 1)` falls short of `60*d` by exactly `59*(d mod 1)`. It never exceeds `60*d`, and it equals `60*d` iff `d` is a whole number. |
| Intervals.OffsetOfOneAndAHalfHours | utils.py:33-35 | A 1.5-hour duration becomes an offset of 60.5 minutes, where the intended value is 90. |
| Intervals.OffsetNonNegativeIff | utils.py:33-36 | The offset is non-negative exactly when the duration is. |
| Intervals.OffsetMonotone | utils.py:33-36 | A longer duration never gives a shorter offset. |
| Intervals.IntersectingSymmetric | utils.py:37-40 | The two disjuncts swap roles, so the test gives the same answer in either argument order. The same holds for the intended test. |
| Intervals.IntersectingIsClosedOverlap | utils.py:37-40 | For non-negative durations, the test equals the overlap of the closed ranges `[start, start + offset]`: `a.start <= b.start + off(b)` and `b.start <= a.start + off(a)`. |
| Intervals.BackToBackIntersects | utils.py:38 | A tour that starts exactly when the other's offset ends conflicts with it, in both argument orders, because both ends use `<=`. |
| Intervals.EqualStartsIntersect | utils.py:38-39 | Two tours with the same start instant conflict whenever either duration is valid. |
| Intervals.DisjointDoesNotIntersect | utils.py:37-40 | A tour that starts strictly after the other's offset has elapsed does not conflict with it, in either order. |
| Intervals.AsWrittenConflictIsIntendedConflict | utils.py:32-40 | For valid durations, every conflict the source reports is also a conflict under hour-correct offsets. The source can only miss conflicts, never invent them. |
| Intervals.WholeHoursAgree | utils.py:32-40 | For whole-hour durations, the source's test and the intended test agree. |
| Intervals.FractionalDurationMissesConflict | utils.py:33-39 | Take a 1.5-hour tour at minute 0 and a tour at minute 61. The intended test reports a conflict and the source's test does not. |
| Intervals.TwoHourToursExample | utils.py:37-40 | Two-hour tours at 10:00 and 11:00 conflict. Tours at 10:00 and 13:00 do not. |
| Models.ValidateDays | src/models.py:14-18 | Rejects with "Days cannot be empty" iff the list is non-empty, so it accepts only the empty list. `models.py:14-18` is identical. |
| Models.ValidateDaysIntended | src/models.py:14-18 | The validator its message describes: it rejects exactly the empty list and passes every other list through unchanged. |
| Models.ValidateDaysInverted | src/models.py:16-17 | The as-written validator accepts exactly the lists the intended one rejects. `[[09:00]]` is rejected by the first and accepted by the second. |
| Models.ValidateGuideSalary | src/models.py:58-62 | Rejects iff the salary is negative. Zero is accepted, and an accepted value is returned unchanged. `models.py:40-44` is identical. |
| Models.ValidateDuration | src/models.py:64-68 | Rejects iff the duration is negative. Zero is accepted, and an accepted value is returned unchanged. `models.py:46-50` is identical. |
| Models.ValidateDates | src/models.py:70-76 | An explicit list is rejected iff some date is strictly before now, so a date equal to now and the empty list pass. A periodic schedule is returned without inspection. `models.py:52-58` is identical. |
| Models.ValidatorsIdempotent | src/models.py:58-76 | Any value a validator accepted is accepted again, with the same result. |
| Models.DatesValidEarlier | src/models.py:70-76 | A date list accepted at one clock reading is accepted at every earlier reading. |
| Models.NewUserInDB | src/models.py:31-34 | A fresh user record has empty `reservation_ids`. It also has no pushed `reservations`. |
| Models.NewReservationInDB | src/models.py:85-87 | A fresh reservation has `notified_participants` false and empty `review_requests`. |
| Models.Embed | models.py:61-70 | An older user record carries its reservations embedded as `Reservation(date, tour_id)` entries, in order. |
| Utils.RenderedIdsVerify | utils.py:28-29 | The 24-digit lower-case hex form of every 12-byte ObjectId passes `verify_id`. |
| Utils.HexStringVerifiesIffLength | utils.py:28-29 | For any string made only of hex digits, `verify_id` accepts it iff its length is exactly 24. |
| Utils.VerifyIdExamples | utils.py:28-29 | `verify_id` accepts 24 hex digits in either case. It rejects 23 or 25 digits, and it rejects a non-hex character. |
| Utils.ValidateEmailMatchesPattern | utils.py:24-25 | The scanning check accepts exactly the strings that start with a non-empty `@`-free run, then `@`, then an `@`-free run holding a `.` with at least one character before and after it. This is what `re.match(r"[^@]+@[^@]+\.[^@]+", s)` matches. |
| Utils.EmailMatchSurvivesSuffix | utils.py:24-25 | The match is unanchored at the end, so appending any suffix keeps a matching address matching. |
| Utils.EmailExamplesAccepted | utils.py:24-25 | The test suite's address `a@gmail.com` matches. So does `a@b.c@d`, which has a second `@` after the dot. |
| Utils.EmailExamplesRejected | utils.py:24-25 | An empty local part and a domain without a dot do not match. |
| Utils.NormalizeId | utils.py:12-13 | The result has the same keys. Every value other than `_id` is unchanged, and `_id` becomes the string form of its old value. |
| Utils.NormalizeIdIdempotent | utils.py:12-13 | Normalising twice gives the same document as normalising once. |
| Utils.NormalizedObjectIdVerifies | utils.py:12-13 | A normalised ObjectId `_id` is a string that passes `verify_id`. |
| Api.AddTour | src/main.py:60-64 | A guide id that is not 24 hex digits gives 400 before any lookup, and an unknown guide gives 404. Otherwise exactly one tour is added under the fresh id and the other tours are unchanged. |
| Api.Scan | src/main.py:98-102 | The loop is clear iff every iteration is clear. Otherwise its outcome is the conflict or exception of the first iteration that is not clear. |
| Api.ConflictIffSomeIntersects | src/main.py:98-102 | When every tour resolves, the loop raises nothing and reports a conflict iff some earlier tour intersects the requested one. |
| Api.ScanAppend | src/main.py:98-102 | Appending an element extends the loop by one iteration. That iteration runs only when everything before it was clear. |
| Handlers.CreateUser | src/main.py:78-90 | Fails with "Email already registered" iff some stored user has that email, and the store is then unchanged. On success it adds exactly one user: the given email, the salted hash and empty `reservation_ids`. Nothing else changes. |
| Handlers.CreateUserKeepsEmailsUnique | src/main.py:81-82 | If email addresses are unique across users before `create_user`, they stay unique after it. |
| Handlers.CreateGuide | src/main.py:43-55 | Checks in this order: an invalid id gives 400 before any lookup, a missing user gives 404, a hash mismatch gives 400. Only then is exactly one guide inserted. Every failure leaves the store unchanged. |
| Handlers.CreateTour | src/main.py:58-65 | An invalid guide id gives 400 and an unknown guide gives 404. Success iff the id is valid and the guide is stored, and then exactly one tour is inserted and nothing else changes. |
| Handlers.ResolveTour | src/main.py:99-100 | An earlier reservation id leads to a tour iff both ids parse and both documents are stored. The tour it leads to is the one the reservation names. |
| Handlers.Admission | src/main.py:95-102 | Check order: a user that was not found fails first, then an unparsable tour id raises. After that the loop's first conflict gives 400 and its first missing document raises. |
| Handlers.ReserveTour | src/main.py:93-106 | A refused request changes nothing. An admitted one inserts exactly one reservation with the given date and tour, and appends its id at the end of the user's `reservations`. `reservation_ids` and all other documents stay unchanged. |
| Handlers.ReserveRefusedIffIntersecting | src/main.py:97-102 | When every id in `reservation_ids` resolves, a request is refused iff one of them leads to a tour that intersects the requested tour, and the refusal is a 400. |
| Handlers.ReserveIgnoresDate | src/main.py:94-104 | Two requests that differ only in `date` get the same answer. |
| Handlers.ReserveUnknownTourAdmitted | src/main.py:97-105 | A user with no `reservation_ids` is admitted even for a tour id that names no stored tour. |
| Handlers.RepeatReservationAdmitted | src/main.py:98-105 | After an admitted request, the same request is admitted again, even for the same tour. The loop reads `reservation_ids` but the new id went to `reservations`. |
| Handlers.ReserveTourTracked | src/main.py:104-105 | Corrected version: it behaves like `reserve_tour`, except that the new id is appended to `reservation_ids`, the list the loop reads. |
| Handlers.TrackedRepeatRefused | src/main.py:98-105 | With the corrected version, repeating an admitted reservation of a stored tour is refused as a conflict. |
| Handlers.RegisterThenGuideSucceeds | tests/test_reservation.py:15-29 | Registering a user with a fresh email succeeds. Registering that user as a guide with the same password then succeeds as well: the salted hash `create_user` stores is the one `create_guide` checks. |
| Handlers.HandlersKeepDurationsValid | src/main.py:58-65 | `create_tour` receives a body that `src/models.py:64-68` has already validated. So every handler keeps each stored tour's duration non-negative, which is what `Handlers.TrackedRepeatRefused` assumes of the reserved tour. |
| Handlers.HandlersKeepReferences | src/main.py:43-106 | Every handler keeps each guide pointing at a stored user and each tour pointing at a stored guide. |
| LegacyHandlers.CreateUser | main.py:67-80 | Mismatched passwords are refused first, then a registered email. Each refusal leaves the store unchanged. On success exactly one user is inserted, keeping the request's embedded reservations, and nothing else changes. |
| LegacyHandlers.CreateGuide | main.py:41-44 | Always inserts exactly one guide, and nothing else changes. |
| LegacyHandlers.CreateTour | main.py:47-54 | An invalid guide id gives 400 and an unknown guide gives 404. Success iff the id is valid and the guide is stored, and then exactly one tour is inserted and nothing else changes. |
| LegacyHandlers.ResolveEntry | main.py:88-89 | An embedded reservation leads to its tour when the tour id parses and the tour is stored. A pushed bare id leads to nothing. |
| LegacyHandlers.Admission | main.py:85-91 | Check order: a user that was not found fails first, then an unparsable tour id raises. After that, the loop over the embedded reservations stops at the first conflict (400) or the first missing tour (raises). |
| LegacyHandlers.ReserveTour | main.py:83-95 | A refused request inserts nothing. An admitted one inserts exactly one reservation and pushes its id onto the user's `reservations`. Nothing else changes. |
| LegacyHandlers.ReserveRefusedIffIntersecting | main.py:88-91 | When every embedded reservation's tour resolves, a request is refused iff one of those tours intersects the requested tour. |
| LegacyHandlers.SecondReservationRaises | main.py:88-94 | The pushed id is not an embedded reservation, so repeating an admitted request raises when the loop reaches it. |
| Tasks.CountAfter | src/tasks.py:33-61 | The `$size` of the `$filter` is at most the number of requests. It is positive iff some request is strictly later than the threshold. |
| Tasks.SelectedIds | src/tasks.py:11-72 | An id is selected iff some reservation with that id has a stored tour that ended strictly before now, and no recorded request is strictly later than `end + offset`. |
| Tasks.PipelineIsFilter | src/tasks.py:12-71 | The staged pipeline (lookup and unwind, match ended, project `has_after_hour`, match false, project id) yields exactly the one-pass selection, in the same order. |
| Tasks.NonNotifiedMembership | src/tasks.py:11-72 | An id is in `get_non_notified_reservations(unit, amount)` iff some reservation with that id is selected at that unit's offset. |
| Tasks.MissingTourNeverSelected | src/tasks.py:14-15 | A reservation whose tour is not stored is never selected. |
| Tasks.SelectedOnlyAfterEnd | src/tasks.py:17-29 | Only reservations whose tour ended strictly before now are selected. |
| Tasks.SelectionGrowsWithOffset | src/tasks.py:39-54 | A reservation selected at a smaller offset is also selected at a larger one. |
| Tasks.HourSelectionWithinWeek | src/tasks.py:131-133 | Every id of the one-hour selection is also in the one-week selection. |
| Tasks.RequestEffect | src/tasks.py:37-56 | A request strictly later than `end + offset` deselects the reservation. A request at or before it, including one exactly at the threshold, changes nothing. |
| Tasks.EarlyRequestKeepsSelection | src/tasks.py:33-69 | Recording a request at or before a reservation's threshold leaves the whole selection unchanged. |
| Tasks.LateRequestDeselects | src/tasks.py:33-69 | When ids are unique, recording a request after a reservation's threshold removes it from the selection. |
| Tasks.TwoAndAHalfHourScenario | src/tasks.py:17-69 | A 2.5-hour tour is not selected during the tour, and is selected right after it ends. A request after `end + 1 hour` covers the hour checkpoint but not the week checkpoint. |
| Tasks.ReviewTargets | src/tasks.py:131-133 | The union of the hour and week selections contains exactly the reservations selected at the week offset. |
| Tasks.DispatchAll | src/tasks.py:133-134 | The loop over the union handles every selected id exactly once: no duplicates, and one send per target. |
| Tasks.RequestReview | src/tasks.py:109-139 | One run sends a request exactly once to each reservation in the week selection, with no duplicates. |

## Left out

- Connection setup and collection bootstrapping (`database.py`, `src/database.py`) are I/O only.
- The stub Celery tasks (`confirm_reservations`, `cancel_reservations`, `move_past_reservations`, `move_reviewed_reservations` in both task files) have empty bodies. The periodic wiring (`setup_periodic_tasks`) is timer scheduling.
- `send_mail`, random salts, ObjectId generation and `EmailStr` belong to foreign libraries. Salts and new ids are parameters, and a new id is assumed fresh in its collection.
- `hash_password` (`utils.py:20-21`) is a wrapper over `hashlib.md5`, and as written it raises. `password + salt` fails with a `TypeError` for the `str` password and the `int` salt of `main.py:75`, and `md5` of a `str` raises as well. The `Hasher` parameter stands for the salted hash the code evidently intends, and it is left uninterpreted.
- `get_objects`, the `read_*` handlers and the geospatial `$near` query are thin reads.
- `get_user` is left out. The reservation handlers take the resolved user id, and an id that names no stored user stands for `get_user`'s "Invalid user ID". Its password check (`utils.py:57-58`, 400 "Invalid password") is dropped. In the source that check runs after the user lookup and before `ObjectId(tour_id)`. So in `Handlers.Admission` and `LegacyHandlers.Admission`, a request with a wrong password is treated as if the password were right.
- Each handler is modelled as one atomic transition of the store, but the source's read-then-write is not atomic. `create_user` checks the email with `find_one` and only then calls `insert_one`. `reserve_tour` reads the user's reservations and their tours, then inserts, then pushes, as separate calls. No unique index on email exists: `src/main.py:16` creates only the geospatial index. So `Handlers.CreateUserKeepsEmailsUnique`, `Handlers.ReserveRefusedIffIntersecting` and `LegacyHandlers.ReserveRefusedIffIntersecting` hold for requests handled one after another only. Concurrent requests can interleave their reads and writes and break them.
- Several calls would raise in Python as written: `time(minute=float)`, `datetime + time`, `time(hour=h)` for `h >= 24`, `get_user` called without its collection, attribute access on the dicts that `find_one` returns, and `UserInDB(**user)` on a model. The model gives the arithmetic and the data flow those lines evidently intend.
- Literal MongoDB evaluation is not modelled: `$match` without `$expr`, `$$NOW`, field-path scoping inside `$filter`, string `tour_id` against ObjectId `_id`, non-integer `$dateAdd` amounts, and the empty `{"$project": {}}` at `src/tasks.py:70`. MongoDB rejects a projection with no fields, so the pipeline as written fails at that stage. `Tasks.MatchNoneAfter` gives its commented intent: keep the `_id` only. The model uses the commented intent over exact numeric time.
- ObjectId parsing is case-insensitive. The model compares ids as strings.
- Calendar and time-zone details of `datetime` are left out, and so are the HTTP routing and status mapping beyond the `(status, detail)` error value.
- Tasks.RequestReview: gives the intended dispatch over a set of ids where the source raises. `src/tasks.py:133` builds `set(...)` from aggregation documents, which are unhashable dicts. That raises `TypeError` whenever a selection is non-empty. `src/tasks.py:137` looks a user up by `review_requests`, a field no user has, so `user.email` raises as well. The mail text and the per-id lookups are not modelled. Only which ids get a mail is stated.
- Handlers.ReserveTour: inserts where the source raises. As written, an admitted request fails at `src/main.py:104`, because `Reservation` is built without the required `review_id` (`src/models.py:82`). So the source inserts nothing and answers 500. The model inserts the reservation with no review id and pushes its id, which is the behaviour the following line and the scheduler evidently expect. Any other uncaught exception maps to a single `Unhandled` error, and the model does not say which Python exception was raised. The handler ends with `return res` (`src/main.py:106`). That returns pymongo's `InsertOneResult`, which FastAPI cannot serialise, so even a request that got past line 104 would answer 500 after both writes. The model returns the new id, as every other handler does with `str(res.inserted_id)`.
- LegacyHandlers.ReserveTour: returns the new id where the source returns the `InsertOneResult` (`return res`, `main.py:95`). FastAPI cannot serialise that object, so an admitted request answers 500 after both writes have been made. The model returns the id, as the other handlers do with `str(res.inserted_id)` (`main.py:44`, `:54`, `:80`).
- Models.ValidateDates: uses one reading of the clock for the whole list. `src/models.py:74` calls `datetime.now()` once per element, so a date that passes early in the list might fail a later reading. The model does not represent the clock advancing during validation.

## Findings

| source | as written | input that shows it | evidently intended | confidence | as-written member | corrected member |
|---|---|---|---|---|---|---|
| src/models.py:16 | `validate_days` raises when the list is non-empty | `days = [[09:00]]` is rejected with "Days cannot be empty" | reject only the empty list | high, not executed | Models.ValidateDaysInverted | Models.ValidateDaysIntended |
| src/main.py:98 | the conflict loop reads `reservation_ids`, but line 105 pushes the new id to `reservations` | reserve a tour, then reserve the same tour again: both are admitted | push to the list the loop reads, so that an overlapping second reservation is refused | high, not executed | Handlers.RepeatReservationAdmitted | Handlers.TrackedRepeatRefused |
| utils.py:34 | `minute=duration % 1` reads the fractional hour as minutes | a 1.5 h tour at 0:00 and a tour at 1:01 are not reported as conflicting | offset of `duration * 60` minutes | high, not executed | Intervals.FractionalDurationMissesConflict | Intervals.AsWrittenConflictIsIntendedConflict |

=== FILE: api.dfy ===
/**
 * What the handlers of both versions (src/main.py and main.py) share: the
 * error results, the "insert one document and change nothing else" relation,
 * tour creation, and the loop of `reserve_tour` that compares the requested
 * tour against the user's earlier tours.
 */
module Api {
  import opened Wrappers
  import opened Intervals
  import opened Models
  import Utils

  /**
   * Why a request failed: an `HTTPException` the handler raises on purpose,
   * or an exception it does not catch (answered with status 500).
   */
  datatype ApiError = HttpError(status: int, detail: string) | Unhandled

  /** The store after a request, and the new document's id or the error. */
  datatype Response<D> = Response(db: D, result: Result<Id, ApiError>)

  const InvalidGuideId := HttpError(400, "Invalid guide_id")
  const GuideNotFound := HttpError(404, "Guide not found")
  const UserNotFound := HttpError(404, "User not found")
  const IncorrectPassword := HttpError(400, "Incorrect password")
  const EmailAlreadyRegistered := HttpError(400, "Email already registered")
  const PasswordsDontMatch := HttpError(400, "Passwords don't match")
  const InvalidUserId := HttpError(400, "Invalid user ID")
  const AlreadyReserved := HttpError(400, "Tour already reserved for this date")

  /** A password hash: `hash_password(password, salt)`, left uninterpreted. */
  type Hasher = (string, string) -> string

  /** `after` is `before` with exactly one new document `v` under the fresh id `id`. */
  predicate InsertedOnly<T(==)>(before: map<Id, T>, after: map<Id, T>, id: Id, v: T)
  {
    && id !in before
    && after.Keys == before.Keys + {id}
    && after[id] == v
    && forall k | k in before :: after[k] == before[k]
  }

  // ---------------------------------------------------------------------------
  // create_tour (identical in both versions)
  // ---------------------------------------------------------------------------

  /**
   * `create_tour` over the guides and tours collections: a guide id that is
   * not 24 hex digits gives 400 before any lookup, an unknown guide gives 404,
   * and otherwise the tour is inserted under the fresh id and nothing else changes.
   */
  function AddTour<G>(guides: map<Id, G>, tours: map<Id, Tour>, tour: Tour, newId: Id): (r: Result<map<Id, Tour>, ApiError>)
    requires newId !in tours
    ensures r == Failure(InvalidGuideId) <==> !Utils.VerifyId(tour.guideId)
    ensures r == Failure(GuideNotFound) <==> Utils.VerifyId(tour.guideId) && tour.guideId !in guides
    ensures r.Success? <==> Utils.VerifyId(tour.guideId) && tour.guideId in guides
    ensures r.Success? ==> InsertedOnly(tours, r.value, newId, tour)
  {
    if !Utils.VerifyId(tour.guideId) then Failure(InvalidGuideId)
    else if tour.guideId !in guides then Failure(GuideNotFound)
    else Success(tours[newId := tour])
  }

  // ---------------------------------------------------------------------------
  // The conflict loop of reserve_tour
  // ---------------------------------------------------------------------------

  /** How the conflict loop ends: no conflict, a conflict, or an exception. */
  datatype ScanOutcome = Clear | Conflict | Crash

  /**
   * What `are_intersecting` reads from a tour record.  `tourDate` stands for
   * the `date` attribute the source reads; stored tours carry `dates` instead,
   * so the model leaves that reading as a parameter.
   */
  function Occupy(t: Tour, tourDate: Tour -> Minutes): Occupancy
  {
    Occupancy(tourDate(t), t.duration)
  }

  /**
   * One iteration of the loop: `are_intersecting(reservation_tour, rhs_tour)`.
   * A missing tour on either side makes the attribute reads raise.
   */
  function Step(requested: Option<Tour>, earlier: Option<Tour>, tourDate: Tour -> Minutes): ScanOutcome
  {
    if requested.None? || earlier.None? then Crash
    else if AreIntersecting(Occupy(requested.value, tourDate), Occupy(earlier.value, tourDate)) then Conflict
    else Clear
  }

  /**
   * The loop over the user's earlier tours, in order: it stops at the first
   * iteration that conflicts or raises, and is clear when every one is clear.
   */
  function Scan(requested: Option<Tour>, earlier: seq<Option<Tour>>, tourDate: Tour -> Minutes): (s: ScanOutcome)
    ensures s.Clear? <==> forall i | 0 <= i < |earlier| :: Step(requested, earlier[i], tourDate).Clear?
    ensures s != Clear ==> exists i | 0 <= i < |earlier| ::
              && Step(requested, earlier[i], tourDate) == s
              && forall j | 0 <= j < i :: Step(requested, earlier[j], tourDate).Clear?
  {
    if earlier == [] then Clear
    else
      var first := Step(requested, earlier[0], tourDate);
      if first.Clear? then
        var rest := Scan(requested, earlier[1..], tourDate);
        assert forall i | 1 <= i < |earlier| :: earlier[i] == earlier[1..][i - 1];
        assert rest != Clear ==> exists i | 0 <= i < |earlier| ::
                 && Step(requested, earlier[i], tourDate) == rest
                 && forall j | 0 <= j < i :: Step(requested, earlier[j], tourDate).Clear? by {
          if rest != Clear {
            var i :| 0 <= i < |earlier[1..]| && Step(requested, earlier[1..][i], tourDate) == rest
                     && forall j | 0 <= j < i :: Step(requested, earlier[1..][j], tourDate).Clear?;
            assert Step(requested, earlier[i + 1], tourDate) == rest;
            forall j | 0 <= j < i + 1 ensures Step(requested, earlier[j], tourDate).Clear? {
              if j > 0 { assert earlier[j] == earlier[1..][j - 1]; }
            }
          }
        }
        rest
      else
        first
  }

  /**
   * When the requested tour and every earlier tour resolve, the loop raises
   * nothing and reports a conflict iff some earlier tour intersects the
   * requested one.
   */
  lemma ConflictIffSomeIntersects(requested: Option<Tour>, earlier: seq<Option<Tour>>, tourDate: Tour -> Minutes)
    requires requested.Some?
    requires forall i | 0 <= i < |earlier| :: earlier[i].Some?
    ensures Scan(requested, earlier, tourDate) != Crash
    ensures Scan(requested, earlier, tourDate) == Conflict
        <==> exists i | 0 <= i < |earlier| ::
               AreIntersecting(Occupy(requested.value, tourDate), Occupy(earlier[i].value, tourDate))
  {
    if exists i | 0 <= i < |earlier| ::
         AreIntersecting(Occupy(requested.value, tourDate), Occupy(earlier[i].value, tourDate)) {
      var i :| 0 <= i < |earlier|
               && AreIntersecting(Occupy(requested.value, tourDate), Occupy(earlier[i].value, tourDate));
      assert !Step(requested, earlier[i], tourDate).Clear?;
    }
  }

  /** Appending one more earlier tour: the loop reaches it only when everything before it was clear. */
  lemma {:induction false} ScanAppend(requested: Option<Tour>, earlier: seq<Option<Tour>>, last: Option<Tour>, tourDate: Tour -> Minutes)
    ensures Scan(requested, earlier + [last], tourDate)
         == if Scan(requested, earlier, tourDate).Clear? then Step(requested, last, tourDate)
            else Scan(requested, earlier, tourDate)
  {
    if earlier != [] {
      assert (earlier + [last])[1..] == earlier[1..] + [last];
      ScanAppend(requested, earlier[1..], last, tourDate);
    }
  }
}

=== FILE: handlers.dfy ===
/**
 * The write handlers of src/main.py as transitions of an abstract store:
 * `create_user`, `create_guide`, `create_tour` and `reserve_tour`.
 *
 * Each handler takes the store as a value and returns the store after the
 * request together with the new document's id or the error.  Environment
 * effects are parameters: the random salt, the password hash (`Hasher`) and
 * the id MongoDB assigns to an inserted document (`newId`, fresh in its
 * collection).
 */
module Handlers {
  import opened Wrappers
  import opened Intervals
  import opened Models
  import opened Api
  import Utils

  datatype Db = Db(
    users: map<Id, UserInDB>,
    guides: map<Id, Guide>,
    tours: map<Id, Tour>,
    reservations: map<Id, ReservationInDB>)

  datatype RegisterRequest = RegisterRequest(name: string, email: string, phone: string, password: string)

  datatype GuideRegisterRequest = GuideRegisterRequest(
    userId: Id,
    languages: seq<string>,
    rating: Option<real>,
    bio: string,
    password: string)

  /** `db.users.find_one({"email": email})` finds something. */
  predicate EmailRegistered(users: map<Id, UserInDB>, email: string)
  {
    exists id | id in users :: users[id].email == email
  }

  /** No two stored users share an email address. */
  ghost predicate UniqueEmails(users: map<Id, UserInDB>)
  {
    forall a, b | a in users && b in users && a != b :: users[a].email != users[b].email
  }

  /** Every guide belongs to a stored user and every tour to a stored guide. */
  ghost predicate References(db: Db)
  {
    && (forall g | g in db.guides :: db.guides[g].userId in db.users)
    && (forall t | t in db.tours :: db.tours[t].guideId in db.guides)
  }

  // ---------------------------------------------------------------------------
  // create_user
  // ---------------------------------------------------------------------------

  /**
   * `create_user`: a registered email is refused with the store untouched;
   * otherwise exactly one user is added, holding the hash of the password
   * under the fresh salt and no reservations, and nothing else changes.
   */
  function CreateUser(db: Db, req: RegisterRequest, salt: string, hash: Hasher, newId: Id): (r: Response<Db>)
    requires newId !in db.users
    ensures r.result.Failure? <==> EmailRegistered(db.users, req.email)
    ensures r.result.Failure? ==> r.result.error == EmailAlreadyRegistered && r.db == db
    ensures r.result.Success? ==>
      && r.result.value == newId
      && InsertedOnly(db.users, r.db.users, newId,
                      NewUserInDB(req.name, req.email, req.phone, hash(req.password, salt), salt))
      && r.db == db.(users := r.db.users)
  {
    if EmailRegistered(db.users, req.email) then Response(db, Failure(EmailAlreadyRegistered))
    else
      var user := NewUserInDB(req.name, req.email, req.phone, hash(req.password, salt), salt);
      Response(db.(users := db.users[newId := user]), Success(newId))
  }

  /** The duplicate-email check keeps email addresses unique across users. */
  lemma CreateUserKeepsEmailsUnique(db: Db, req: RegisterRequest, salt: string, hash: Hasher, newId: Id)
    requires newId !in db.users
    requires UniqueEmails(db.users)
    ensures UniqueEmails(CreateUser(db, req, salt, hash, newId).db.users)
  {
    var after := CreateUser(db, req, salt, hash, newId).db.users;
    forall a, b | a in after && b in after && a != b
      ensures after[a].email != after[b].email
    {
      if a == newId {
        assert b in db.users;
      } else if b == newId {
        assert a in db.users;
      }
    }
  }

  // ---------------------------------------------------------------------------
  // create_guide
  // ---------------------------------------------------------------------------

  /** The password of a guide registration matches the stored user's hash. */
  predicate PasswordMatches(db: Db, req: GuideRegisterRequest, hash: Hasher)
    requires req.userId in db.users
  {
    hash(req.password, db.users[req.userId].salt) == db.users[req.userId].hashedPassword
  }

  /**
   * `create_guide`, checks in order: a user id that is not 24 hex digits gives
   * 400 before any lookup, an unknown user 404, a wrong password 400; only then
   * is exactly one guide inserted, and nothing else changes.
   */
  function CreateGuide(db: Db, req: GuideRegisterRequest, hash: Hasher, newId: Id): (r: Response<Db>)
    requires newId !in db.guides
    ensures r.result.Failure? ==> r.db == db
    ensures !Utils.VerifyId(req.userId) ==> r.result == Failure(InvalidGuideId)
    ensures Utils.VerifyId(req.userId) && req.userId !in db.users ==> r.result == Failure(UserNotFound)
    ensures Utils.VerifyId(req.userId) && req.userId in db.users && !PasswordMatches(db, req, hash)
            ==> r.result == Failure(IncorrectPassword)
    ensures r.result.Success? <==>
              Utils.VerifyId(req.userId) && req.userId in db.users && PasswordMatches(db, req, hash)
    ensures r.result.Success? ==>
      && r.result.value == newId
      && InsertedOnly(db.guides, r.db.guides, newId, Guide(req.userId, req.languages, req.rating, req.bio))
      && r.db == db.(guides := r.db.guides)
  {
    if !Utils.VerifyId(req.userId) then Response(db, Failure(InvalidGuideId))
    else if req.userId !in db.users then Response(db, Failure(UserNotFound))
    else if !PasswordMatches(db, req, hash) then Response(db, Failure(IncorrectPassword))
    else Response(db.(guides := db.guides[newId := Guide(req.userId, req.languages, req.rating, req.bio)]), Success(newId))
  }

  // ---------------------------------------------------------------------------
  // create_tour
  // ---------------------------------------------------------------------------

  /**
   * `create_tour`: an invalid guide id gives 400, an unknown guide 404, and
   * otherwise exactly one tour is inserted and nothing else changes.
   */
  function CreateTour(db: Db, tour: Tour, newId: Id): (r: Response<Db>)
    requires newId !in db.tours
    ensures r.result.Failure? ==> r.db == db
    ensures r.result == Failure(InvalidGuideId) <==> !Utils.VerifyId(tour.guideId)
    ensures r.result == Failure(GuideNotFound) <==> Utils.VerifyId(tour.guideId) && tour.guideId !in db.guides
    ensures r.result.Success? <==> Utils.VerifyId(tour.guideId) && tour.guideId in db.guides
    ensures r.result.Success? ==>
      && r.result.value == newId
      && InsertedOnly(db.tours, r.db.tours, newId, tour)
      && r.db == db.(tours := r.db.tours)
  {
    match AddTour(db.guides, db.tours, tour, newId)
    case Failure(e) => Response(db, Failure(e))
    case Success(tours) => Response(db.(tours := tours), Success(newId))
  }

  // ---------------------------------------------------------------------------
  // reserve_tour
  // ---------------------------------------------------------------------------

  /**
   * The tour an earlier reservation id leads to, through `ObjectId(rid)`, the
   * reservation lookup, `ObjectId(reservation.tour_id)` and the tour lookup;
   * `None` when any of them raises or finds nothing.
   */
  function ResolveTour(db: Db, rid: Id): (t: Option<Tour>)
    ensures t.Some? <==>
              && Utils.VerifyId(rid) && rid in db.reservations
              && Utils.VerifyId(db.reservations[rid].tourId) && db.reservations[rid].tourId in db.tours
    ensures t.Some? ==> t.value == db.tours[db.reservations[rid].tourId]
  {
    if !Utils.VerifyId(rid) || rid !in db.reservations then None
    else
      var tourId := db.reservations[rid].tourId;
      if !Utils.VerifyId(tourId) then None else Lookup(db.tours, tourId)
  }

  /** The tours of the listed reservation ids, in list order. */
  function EarlierTours(db: Db, rids: seq<Id>): (ts: seq<Option<Tour>>)
    ensures |ts| == |rids|
    ensures forall i | 0 <= i < |rids| :: ts[i] == ResolveTour(db, rids[i])
  {
    seq(|rids|, i requires 0 <= i < |rids| => ResolveTour(db, rids[i]))
  }

  /**
   * Whether a reservation is admitted, before anything is written: `None`
   * when it is, else the error.  The user (resolved by `get_user`, which is
   * not part of this model) must be stored; `ObjectId(tour_id)` must parse;
   * then the loop compares the requested tour with the tour of every id in
   * the user's `reservation_ids`.  The requested `date` plays no part.
   */
  function Admission(db: Db, userId: Id, tourId: Id, tourDate: Tour -> Minutes): (e: Option<ApiError>)
    ensures userId !in db.users ==> e == Some(InvalidUserId)
    ensures userId in db.users && !Utils.VerifyId(tourId) ==> e == Some(Unhandled)
    ensures userId in db.users && Utils.VerifyId(tourId) ==>
              match Scan(Lookup(db.tours, tourId), EarlierTours(db, db.users[userId].reservationIds), tourDate)
              case Clear => e.None?
              case Conflict => e == Some(AlreadyReserved)
              case Crash => e == Some(Unhandled)
  {
    if userId !in db.users then Some(InvalidUserId)
    else if !Utils.VerifyId(tourId) then Some(Unhandled)
    else
      match Scan(Lookup(db.tours, tourId), EarlierTours(db, db.users[userId].reservationIds), tourDate)
      case Clear => None
      case Conflict => Some(AlreadyReserved)
      case Crash => Some(Unhandled)
  }

  /**
   * `reserve_tour` as written: an admitted request inserts exactly one
   * reservation with the given date and tour and appends its id to the end of
   * the user's `reservations` list; the user's `reservation_ids`, the list the
   * conflict loop reads, stays as it was.  A refused request changes nothing.
   */
  function ReserveTour(db: Db, userId: Id, tourId: Id, date: Minutes, tourDate: Tour -> Minutes, newId: Id): (r: Response<Db>)
    requires newId !in db.reservations
    ensures r.result.Failure? <==> Admission(db, userId, tourId, tourDate).Some?
    ensures r.result.Failure? ==> r.db == db && r.result.error == Admission(db, userId, tourId, tourDate).value
    ensures r.result.Success? ==>
      && r.result.value == newId
      && InsertedOnly(db.reservations, r.db.reservations, newId, NewReservationInDB(date, tourId, None))
      && r.db.users.Keys == db.users.Keys
      && (forall u | u in db.users && u != userId :: r.db.users[u] == db.users[u])
      && r.db.users[userId].reservations == db.users[userId].reservations + [newId]
      && r.db.users[userId].reservationIds == db.users[userId].reservationIds
      && r.db.users[userId] == db.users[userId].(reservations := r.db.users[userId].reservations)
      && r.db == db.(users := r.db.users, reservations := r.db.reservations)
  {
    match Admission(db, userId, tourId, tourDate)
    case Some(e) => Response(db, Failure(e))
    case None =>
      var user := db.users[userId];
      Response(
        db.(reservations := db.reservations[newId := NewReservationInDB(date, tourId, None)],
            users := db.users[userId := user.(reservations := user.reservations + [newId])]),
        Success(newId))
  }

  /**
   * When the requested tour and every earlier reservation resolve, a stored
   * user's request is refused iff the tour of some id in `reservation_ids`
   * intersects the requested tour.
   */
  lemma ReserveRefusedIffIntersecting(db: Db, userId: Id, tourId: Id, date: Minutes, tourDate: Tour -> Minutes, newId: Id)
    requires newId !in db.reservations
    requires userId in db.users && Utils.VerifyId(tourId) && tourId in db.tours
    requires forall rid | rid in db.users[userId].reservationIds :: ResolveTour(db, rid).Some?
    ensures ReserveTour(db, userId, tourId, date, tourDate, newId).result.Failure?
        <==> exists rid | rid in db.users[userId].reservationIds ::
               AreIntersecting(Occupy(db.tours[tourId], tourDate), Occupy(ResolveTour(db, rid).value, tourDate))
    ensures ReserveTour(db, userId, tourId, date, tourDate, newId).result.Failure?
        ==> ReserveTour(db, userId, tourId, date, tourDate, newId).result.error == AlreadyReserved
  {
    var rids := db.users[userId].reservationIds;
    var earlier := EarlierTours(db, rids);
    ConflictIffSomeIntersects(Lookup(db.tours, tourId), earlier, tourDate);
    if exists rid | rid in rids ::
         AreIntersecting(Occupy(db.tours[tourId], tourDate), Occupy(ResolveTour(db, rid).value, tourDate)) {
      var rid :| rid in rids
                 && AreIntersecting(Occupy(db.tours[tourId], tourDate), Occupy(ResolveTour(db, rid).value, tourDate));
      var i :| 0 <= i < |rids| && rids[i] == rid;
      assert earlier[i] == ResolveTour(db, rid);
    }
  }

  /** The requested date never changes the decision: two requests differing only in date get the same answer. */
  lemma ReserveIgnoresDate(db: Db, userId: Id, tourId: Id, d1: Minutes, d2: Minutes, tourDate: Tour -> Minutes, newId: Id)
    requires newId !in db.reservations
    ensures ReserveTour(db, userId, tourId, d1, tourDate, newId).result
         == ReserveTour(db, userId, tourId, d2, tourDate, newId).result
  {
  }

  /**
   * A user without earlier reservation ids is admitted even when the tour id
   * names no stored tour: the loop, which alone reads the tour, never runs.
   */
  lemma ReserveUnknownTourAdmitted(db: Db, userId: Id, tourId: Id, date: Minutes, tourDate: Tour -> Minutes, newId: Id)
    requires newId !in db.reservations
    requires userId in db.users && db.users[userId].reservationIds == []
    requires Utils.VerifyId(tourId) && tourId !in db.tours
    ensures ReserveTour(db, userId, tourId, date, tourDate, newId).result == Success(newId)
  {
  }

  /**
   * Double booking: since the new id is pushed to `reservations` while the
   * loop reads `reservation_ids`, a request that was admitted is admitted
   * again after it was stored, even for the very same tour.
   */
  lemma RepeatReservationAdmitted(db: Db, userId: Id, tourId: Id, d1: Minutes, d2: Minutes,
                                  tourDate: Tour -> Minutes, id1: Id, id2: Id)
    requires id1 !in db.reservations
    requires ReserveTour(db, userId, tourId, d1, tourDate, id1).result.Success?
    requires id2 !in ReserveTour(db, userId, tourId, d1, tourDate, id1).db.reservations
    ensures ReserveTour(ReserveTour(db, userId, tourId, d1, tourDate, id1).db, userId, tourId, d2, tourDate, id2).result
         == Success(id2)
  {
    var db1 := ReserveTour(db, userId, tourId, d1, tourDate, id1).db;
    var rids := db.users[userId].reservationIds;
    var earlier := EarlierTours(db, rids);
    assert db1.users[userId].reservationIds == rids;
    forall i | 0 <= i < |rids| ensures EarlierTours(db1, rids)[i] == earlier[i] {
      assert Step(Lookup(db.tours, tourId), earlier[i], tourDate).Clear?;
      assert rids[i] in db.reservations;
    }
    assert EarlierTours(db1, rids) == earlier;
  }

  // ---------------------------------------------------------------------------
  // reserve_tour, corrected
  // ---------------------------------------------------------------------------

  /**
   * `reserve_tour` with the new id appended to `reservation_ids`, the list the
   * conflict loop reads, instead of to `reservations`.
   */
  function ReserveTourTracked(db: Db, userId: Id, tourId: Id, date: Minutes, tourDate: Tour -> Minutes, newId: Id): (r: Response<Db>)
    requires newId !in db.reservations
    ensures r.result.Failure? <==> Admission(db, userId, tourId, tourDate).Some?
    ensures r.result.Failure? ==> r.db == db && r.result.error == Admission(db, userId, tourId, tourDate).value
    ensures r.result.Success? ==>
      && r.result.value == newId
      && InsertedOnly(db.reservations, r.db.reservations, newId, NewReservationInDB(date, tourId, None))
      && r.db.users.Keys == db.users.Keys
      && (forall u | u in db.users && u != userId :: r.db.users[u] == db.users[u])
      && r.db.users[userId].reservationIds == db.users[userId].reservationIds + [newId]
      && r.db.users[userId] == db.users[userId].(reservationIds := r.db.users[userId].reservationIds)
      && r.db == db.(users := r.db.users, reservations := r.db.reservations)
  {
    match Admission(db, userId, tourId, tourDate)
    case Some(e) => Response(db, Failure(e))
    case None =>
      var user := db.users[userId];
      Response(
        db.(reservations := db.reservations[newId := NewReservationInDB(date, tourId, None)],
            users := db.users[userId := user.(reservationIds := user.reservationIds + [newId])]),
        Success(newId))
  }

  /**
   * With the id tracked where the loop reads it, repeating an admitted
   * reservation of a stored tour is refused as a conflict.
   */
  lemma TrackedRepeatRefused(db: Db, userId: Id, tourId: Id, d1: Minutes, d2: Minutes,
                             tourDate: Tour -> Minutes, id1: Id, id2: Id)
    requires id1 !in db.reservations
    requires tourId in db.tours && 0.0 <= db.tours[tourId].duration
    requires Utils.VerifyId(id1)
    requires ReserveTourTracked(db, userId, tourId, d1, tourDate, id1).result.Success?
    requires id2 !in ReserveTourTracked(db, userId, tourId, d1, tourDate, id1).db.reservations
    ensures ReserveTourTracked(ReserveTourTracked(db, userId, tourId, d1, tourDate, id1).db, userId, tourId, d2, tourDate, id2).result
         == Failure(AlreadyReserved)
  {
    var db1 := ReserveTourTracked(db, userId, tourId, d1, tourDate, id1).db;
    var rids := db.users[userId].reservationIds;
    var requested := Lookup(db.tours, tourId);
    var earlier := EarlierTours(db, rids);
    assert Utils.VerifyId(tourId);
    assert db1.users[userId].reservationIds == rids + [id1];
    forall i | 0 <= i < |rids| ensures EarlierTours(db1, rids + [id1])[i] == earlier[i] {
      assert Step(requested, earlier[i], tourDate).Clear?;
      assert rids[i] in db.reservations;
      assert (rids + [id1])[i] == rids[i];
    }
    assert ResolveTour(db1, id1) == requested;
    assert EarlierTours(db1, rids + [id1]) == earlier + [requested];
    ScanAppend(requested, earlier, requested, tourDate);
    EqualStartsIntersect(Occupy(db.tours[tourId], tourDate), Occupy(db.tours[tourId], tourDate));
  }

  // ---------------------------------------------------------------------------
  // Registration round trip
  // ---------------------------------------------------------------------------

  /**
   * Registering a user and then registering that user as a guide with the
   * same password succeeds: the salted hash `create_user` stores is the one
   * `create_guide` checks the password against.
   */
  lemma RegisterThenGuideSucceeds(db: Db, req: RegisterRequest, salt: string, hash: Hasher,
                                  languages: seq<string>, rating: Option<real>, bio: string, uid: Id, gid: Id)
    requires uid !in db.users && gid !in db.guides
    requires !EmailRegistered(db.users, req.email)
    requires Utils.VerifyId(uid)
    ensures CreateUser(db, req, salt, hash, uid).result == Success(uid)
    ensures CreateGuide(CreateUser(db, req, salt, hash, uid).db,
                        GuideRegisterRequest(uid, languages, rating, bio, req.password), hash, gid).result
         == Success(gid)
  {
  }

  // ---------------------------------------------------------------------------
  // Invariants across handlers
  // ---------------------------------------------------------------------------

  /** Every handler keeps guides pointing at users and tours pointing at guides. */
  lemma HandlersKeepReferences(db: Db, ureq: RegisterRequest, greq: GuideRegisterRequest, tour: Tour,
                               salt: string, hash: Hasher, tourDate: Tour -> Minutes,
                               userId: Id, tourId: Id, date: Minutes, newId: Id)
    requires References(db)
    requires newId !in db.users && newId !in db.guides && newId !in db.tours && newId !in db.reservations
    ensures References(CreateUser(db, ureq, salt, hash, newId).db)
    ensures References(CreateGuide(db, greq, hash, newId).db)
    ensures References(CreateTour(db, tour, newId).db)
    ensures References(ReserveTour(db, userId, tourId, date, tourDate, newId).db)
  {
  }

  /** Every stored tour has a duration the `Tour` validator accepts. */
  ghost predicate DurationsValid(db: Db)
  {
    forall t | t in db.tours :: ValidateDuration(db.tours[t].duration).Success?
  }

  /**
   * The request body of `create_tour` is validated before the handler runs,
   * so every handler keeps stored tour durations non-negative.
   */
  lemma HandlersKeepDurationsValid(db: Db, ureq: RegisterRequest, greq: GuideRegisterRequest, tour: Tour,
                                   salt: string, hash: Hasher, tourDate: Tour -> Minutes,
                                   userId: Id, tourId: Id, date: Minutes, newId: Id)
    requires DurationsValid(db)
    requires ValidateDuration(tour.duration).Success?
    requires newId !in db.users && newId !in db.guides && newId !in db.tours && newId !in db.reservations
    ensures DurationsValid(CreateUser(db, ureq, salt, hash, newId).db)
    ensures DurationsValid(CreateGuide(db, greq, hash, newId).db)
    ensures DurationsValid(CreateTour(db, tour, newId).db)
    ensures DurationsValid(ReserveTour(db, userId, tourId, date, tourDate, newId).db)
    ensures forall t | t in CreateTour(db, tour, newId).db.tours :: 0.0 <= CreateTour(db, tour, newId).db.tours[t].duration
  {
  }
}

=== FILE: intervals.dfy ===
/**
 * The interval conflict predicate of utils.py (`are_intersecting`).
 *
 * Instants are exact numbers of minutes since a fixed epoch; tour durations
 * are exact numbers of hours, possibly fractional.  The source turns a
 * duration `d` into a `datetime.time(hour=floor(d), minute=d % 1)` and adds it
 * to a start instant, so the fractional part of the duration is read as a
 * number of MINUTES, not as a fraction of an hour.  The model keeps that
 * arithmetic exactly (`DurationOffset`) and also states the evidently
 * intended one (`HoursToMinutes`) so that the two can be compared.
 */
module Intervals {

  /** An instant or an offset, in minutes. */
  type Minutes = real

  const MinutesPerHour: real := 60.0
  const MinutesPerWeek: real := 10080.0

  /** What `are_intersecting` reads from each of its two arguments. */
  datatype Occupancy = Occupancy(date: Minutes, duration: real)

  /** The fractional part of `d`, which is Python's `d % 1` (floored modulo). */
  function Frac(d: real): (f: real)
    ensures 0.0 <= f < 1.0
    ensures (d - f).Floor as real == d - f
  {
    d - d.Floor as real
  }

  /** The offset the source adds to a start instant: `floor(d)` hours plus `d % 1` minutes. */
  function DurationOffset(d: real): (m: Minutes)
  {
    d.Floor as real * MinutesPerHour + Frac(d)
  }

  /** The conversion a fractional hour evidently intends: `d` hours is `60 * d` minutes. */
  function HoursToMinutes(d: real): (m: Minutes)
  {
    d * MinutesPerHour
  }

  /** Whether `t` lies in the closed range from `start` to `start + offset`. */
  predicate Within(start: Minutes, offset: Minutes, t: Minutes)
  {
    start <= t <= start + offset
  }

  /**
   * `are_intersecting(reservation_tour, rhs_tour)`: either start lies in the
   * other's closed occupancy range, each range ending at start plus `DurationOffset`.
   */
  predicate AreIntersecting(a: Occupancy, b: Occupancy)
  {
    Within(a.date, DurationOffset(a.duration), b.date)
    || Within(b.date, DurationOffset(b.duration), a.date)
  }

  /** The same test with durations converted as whole hours plus fractional hours. */
  predicate AreIntersectingIntended(a: Occupancy, b: Occupancy)
  {
    Within(a.date, HoursToMinutes(a.duration), b.date)
    || Within(b.date, HoursToMinutes(b.duration), a.date)
  }

  // ---------------------------------------------------------------------------
  // The duration conversion
  // ---------------------------------------------------------------------------

  /**
   * The source's offset never exceeds `d` hours, and equals it exactly when
   * `d` is a whole number of hours; for a fractional duration it falls short
   * by 59 minutes per hour of fraction.
   */
  lemma OffsetVersusHours(d: real)
    ensures HoursToMinutes(d) - DurationOffset(d) == 59.0 * Frac(d)
    ensures DurationOffset(d) <= HoursToMinutes(d)
    ensures DurationOffset(d) == HoursToMinutes(d) <==> d == d.Floor as real
  {
    var h := d.Floor as real;
    assert d == h + Frac(d);
    calc {
      HoursToMinutes(d) - DurationOffset(d);
      (h + Frac(d)) * 60.0 - (h * 60.0 + Frac(d));
      59.0 * Frac(d);
    }
  }

  /** A tour of an hour and a half occupies 60.5 minutes, not 90. */
  lemma OffsetOfOneAndAHalfHours()
    ensures DurationOffset(1.5) == 60.5
    ensures HoursToMinutes(1.5) == 90.0
  {
    assert 1.5.Floor == 1;
  }

  /** The offset is non-negative exactly for non-negative durations. */
  lemma OffsetNonNegativeIff(d: real)
    ensures 0.0 <= DurationOffset(d) <==> 0.0 <= d
  {
    var h := d.Floor as real;
    if d < 0.0 {
      assert h <= -1.0;
      assert DurationOffset(d) < h * 60.0 + 1.0;
    }
  }

  /** A longer tour never occupies a shorter offset. */
  lemma OffsetMonotone(d1: real, d2: real)
    requires d1 <= d2
    ensures DurationOffset(d1) <= DurationOffset(d2)
  {
    var h1, h2 := d1.Floor, d2.Floor;
    assert h1 <= h2;
    if h1 < h2 {
      assert (h1 as real) * 60.0 + 60.0 <= (h2 as real) * 60.0;
    }
  }

  // ---------------------------------------------------------------------------
  // The overlap test
  // ---------------------------------------------------------------------------

  /** The two disjuncts swap roles exactly, so argument order does not matter. */
  lemma IntersectingSymmetric(a: Occupancy, b: Occupancy)
    ensures AreIntersecting(a, b) <==> AreIntersecting(b, a)
    ensures AreIntersectingIntended(a, b) <==> AreIntersectingIntended(b, a)
  {
  }

  /**
   * For validated (non-negative) durations the test is exactly the overlap of
   * the closed ranges `[a.date, a.date + off(a)]` and `[b.date, b.date + off(b)]`.
   */
  lemma IntersectingIsClosedOverlap(a: Occupancy, b: Occupancy)
    requires 0.0 <= a.duration && 0.0 <= b.duration
    ensures AreIntersecting(a, b)
        <==> a.date <= b.date + DurationOffset(b.duration) && b.date <= a.date + DurationOffset(a.duration)
  {
    OffsetNonNegativeIff(a.duration);
    OffsetNonNegativeIff(b.duration);
  }

  /** Back-to-back tours conflict: a start equal to the other's end is inside its closed range. */
  lemma BackToBackIntersects(a: Occupancy, b: Occupancy)
    requires 0.0 <= a.duration
    requires b.date == a.date + DurationOffset(a.duration)
    ensures AreIntersecting(a, b) && AreIntersecting(b, a)
  {
    OffsetNonNegativeIff(a.duration);
  }

  /** Two tours starting at the same instant always conflict when either duration is valid. */
  lemma EqualStartsIntersect(a: Occupancy, b: Occupancy)
    requires a.date == b.date
    requires 0.0 <= a.duration || 0.0 <= b.duration
    ensures AreIntersecting(a, b)
  {
    OffsetNonNegativeIff(a.duration);
    OffsetNonNegativeIff(b.duration);
  }

  /** A tour starting strictly after the other's offset has elapsed does not conflict with it. */
  lemma DisjointDoesNotIntersect(a: Occupancy, b: Occupancy)
    requires 0.0 <= a.duration
    requires a.date + DurationOffset(a.duration) < b.date
    ensures !AreIntersecting(a, b) && !AreIntersecting(b, a)
  {
    OffsetNonNegativeIff(a.duration);
  }

  /**
   * Because the source's offset is never longer than the intended one, every
   * conflict it reports is a real conflict; it can only miss some.
   */
  lemma AsWrittenConflictIsIntendedConflict(a: Occupancy, b: Occupancy)
    requires 0.0 <= a.duration && 0.0 <= b.duration
    ensures AreIntersecting(a, b) ==> AreIntersectingIntended(a, b)
  {
    OffsetVersusHours(a.duration);
    OffsetVersusHours(b.duration);
  }

  /** For whole-hour durations the source's test and the intended test agree. */
  lemma WholeHoursAgree(a: Occupancy, b: Occupancy)
    requires a.duration == a.duration.Floor as real && b.duration == b.duration.Floor as real
    ensures AreIntersecting(a, b) <==> AreIntersectingIntended(a, b)
  {
    OffsetVersusHours(a.duration);
    OffsetVersusHours(b.duration);
  }

  /**
   * A 1.5-hour tour starting at 0 and a tour starting 61 minutes later: the
   * intended test reports the conflict, the source's test does not.
   */
  lemma FractionalDurationMissesConflict()
    ensures AreIntersectingIntended(Occupancy(0.0, 1.5), Occupancy(61.0, 1.0))
    ensures !AreIntersecting(Occupancy(0.0, 1.5), Occupancy(61.0, 1.0))
  {
    OffsetOfOneAndAHalfHours();
    assert 1.0.Floor == 1;
  }

  /**
   * Two 2-hour tours at 10:00 and 11:00 conflict; tours at 10:00 and 13:00 do
   * not (instants are minutes after midnight).
   */
  lemma TwoHourToursExample()
    ensures AreIntersecting(Occupancy(600.0, 2.0), Occupancy(660.0, 2.0))
    ensures !AreIntersecting(Occupancy(600.0, 2.0), Occupancy(780.0, 2.0))
  {
    assert 2.0.Floor == 2;
  }
}

=== FILE: legacy_handlers.dfy ===
/**
 * The write handlers of the older version, main.py, where a user document
 * embeds its reservations instead of listing reservation ids.
 */
module LegacyHandlers {
  import opened Wrappers
  import opened Intervals
  import opened Models
  import opened Api
  import Utils

  datatype LegacyDb = LegacyDb(
    users: map<Id, LegacyUserInDB>,
    guides: map<Id, LegacyGuide>,
    tours: map<Id, Tour>,
    reservations: map<Id, LegacyReservation>)

  /** `users.find_one({"email": email})` finds something. */
  predicate EmailRegistered(users: map<Id, LegacyUserInDB>, email: string)
  {
    exists id | id in users :: users[id].email == email
  }

  // ---------------------------------------------------------------------------
  // create_user
  // ---------------------------------------------------------------------------

  /**
   * `create_user`: differing passwords are refused first, then a registered
   * email; each refusal leaves the store untouched.  Otherwise exactly one
   * user is added, keeping the reservations of the request, and nothing else
   * changes.
   */
  function CreateUser(db: LegacyDb, user: LegacyUser, password: string, repeatPassword: string,
                      salt: string, hash: Hasher, newId: Id): (r: Response<LegacyDb>)
    requires newId !in db.users
    ensures r.result.Failure? ==> r.db == db
    ensures password != repeatPassword ==> r.result == Failure(PasswordsDontMatch)
    ensures password == repeatPassword && EmailRegistered(db.users, user.email)
            ==> r.result == Failure(EmailAlreadyRegistered)
    ensures r.result.Success? <==> password == repeatPassword && !EmailRegistered(db.users, user.email)
    ensures r.result.Success? ==>
      && r.result.value == newId
      && InsertedOnly(db.users, r.db.users, newId,
                      LegacyUserInDB(user.name, user.email, user.phone, Embed(user.reservations),
                                     hash(password, salt), salt))
      && r.db == db.(users := r.db.users)
  {
    if password != repeatPassword then Response(db, Failure(PasswordsDontMatch))
    else if EmailRegistered(db.users, user.email) then Response(db, Failure(EmailAlreadyRegistered))
    else
      var stored := LegacyUserInDB(user.name, user.email, user.phone, Embed(user.reservations), hash(password, salt), salt);
      Response(db.(users := db.users[newId := stored]), Success(newId))
  }

  // ---------------------------------------------------------------------------
  // create_guide, create_tour
  // ---------------------------------------------------------------------------

  /** `create_guide`: inserts the guide unconditionally; nothing else changes. */
  function CreateGuide(db: LegacyDb, guide: LegacyGuide, newId: Id): (r: Response<LegacyDb>)
    requires newId !in db.guides
    ensures r.result == Success(newId)
    ensures InsertedOnly(db.guides, r.db.guides, newId, guide)
    ensures r.db == db.(guides := r.db.guides)
  {
    Response(db.(guides := db.guides[newId := guide]), Success(newId))
  }

  /**
   * `create_tour`: an invalid guide id gives 400, an unknown guide 404, and
   * otherwise exactly one tour is inserted and nothing else changes.
   */
  function CreateTour(db: LegacyDb, tour: Tour, newId: Id): (r: Response<LegacyDb>)
    requires newId !in db.tours
    ensures r.result.Failure? ==> r.db == db
    ensures r.result == Failure(InvalidGuideId) <==> !Utils.VerifyId(tour.guideId)
    ensures r.result == Failure(GuideNotFound) <==> Utils.VerifyId(tour.guideId) && tour.guideId !in db.guides
    ensures r.result.Success? <==> Utils.VerifyId(tour.guideId) && tour.guideId in db.guides
    ensures r.result.Success? ==>
      && r.result.value == newId
      && InsertedOnly(db.tours, r.db.tours, newId, tour)
      && r.db == db.(tours := r.db.tours)
  {
    match AddTour(db.guides, db.tours, tour, newId)
    case Failure(e) => Response(db, Failure(e))
    case Success(tours) => Response(db.(tours := tours), Success(newId))
  }

  // ---------------------------------------------------------------------------
  // reserve_tour
  // ---------------------------------------------------------------------------

  /**
   * The tour an entry of the user's `reservations` list leads to: an embedded
   * reservation through `ObjectId(reservation.tour_id)` and the tour lookup;
   * a bare id pushed by an earlier reservation has no `tour_id`, so it raises.
   */
  function ResolveEntry(db: LegacyDb, entry: ReservationEntry): (t: Option<Tour>)
    ensures t.Some? <==> entry.Embedded? && Utils.VerifyId(entry.reservation.tourId)
                         && entry.reservation.tourId in db.tours
    ensures t.Some? ==> t.value == db.tours[entry.reservation.tourId]
  {
    match entry
    case PushedId(_) => None
    case Embedded(res) => if !Utils.VerifyId(res.tourId) then None else Lookup(db.tours, res.tourId)
  }

  function EntryTours(db: LegacyDb, entries: seq<ReservationEntry>): (ts: seq<Option<Tour>>)
    ensures |ts| == |entries|
    ensures forall i | 0 <= i < |entries| :: ts[i] == ResolveEntry(db, entries[i])
  {
    seq(|entries|, i requires 0 <= i < |entries| => ResolveEntry(db, entries[i]))
  }

  /** Whether the reservation is admitted: `None` when it is, else the error. */
  function Admission(db: LegacyDb, userId: Id, tourId: Id, tourDate: Tour -> Minutes): (e: Option<ApiError>)
    ensures userId !in db.users ==> e == Some(InvalidUserId)
    ensures userId in db.users && !Utils.VerifyId(tourId) ==> e == Some(Unhandled)
    ensures userId in db.users && Utils.VerifyId(tourId) ==>
              match Scan(Lookup(db.tours, tourId), EntryTours(db, db.users[userId].reservations), tourDate)
              case Clear => e.None?
              case Conflict => e == Some(AlreadyReserved)
              case Crash => e == Some(Unhandled)
  {
    if userId !in db.users then Some(InvalidUserId)
    else if !Utils.VerifyId(tourId) then Some(Unhandled)
    else
      match Scan(Lookup(db.tours, tourId), EntryTours(db, db.users[userId].reservations), tourDate)
      case Clear => None
      case Conflict => Some(AlreadyReserved)
      case Crash => Some(Unhandled)
  }

  /**
   * `reserve_tour`: an admitted request inserts exactly one reservation and
   * pushes its id onto the user's `reservations`; a refused one changes nothing.
   */
  function ReserveTour(db: LegacyDb, userId: Id, tourId: Id, date: Minutes, tourDate: Tour -> Minutes, newId: Id): (r: Response<LegacyDb>)
    requires newId !in db.reservations
    ensures r.result.Failure? <==> Admission(db, userId, tourId, tourDate).Some?
    ensures r.result.Failure? ==> r.db == db && r.result.error == Admission(db, userId, tourId, tourDate).value
    ensures r.result.Success? ==>
      && r.result.value == newId
      && InsertedOnly(db.reservations, r.db.reservations, newId, LegacyReservation(date, tourId))
      && r.db.users.Keys == db.users.Keys
      && (forall u | u in db.users && u != userId :: r.db.users[u] == db.users[u])
      && r.db.users[userId].reservations == db.users[userId].reservations + [PushedId(newId)]
      && r.db.users[userId] == db.users[userId].(reservations := r.db.users[userId].reservations)
      && r.db == db.(users := r.db.users, reservations := r.db.reservations)
  {
    match Admission(db, userId, tourId, tourDate)
    case Some(e) => Response(db, Failure(e))
    case None =>
      var user := db.users[userId];
      Response(
        db.(reservations := db.reservations[newId := LegacyReservation(date, tourId)],
            users := db.users[userId := user.(reservations := user.reservations + [PushedId(newId)])]),
        Success(newId))
  }

  /**
   * When the requested tour and every embedded reservation's tour resolve, a
   * stored user's request is refused iff some embedded reservation's tour
   * intersects the requested tour.
   */
  lemma ReserveRefusedIffIntersecting(db: LegacyDb, userId: Id, tourId: Id, date: Minutes, tourDate: Tour -> Minutes, newId: Id)
    requires newId !in db.reservations
    requires userId in db.users && Utils.VerifyId(tourId) && tourId in db.tours
    requires forall e | e in db.users[userId].reservations :: ResolveEntry(db, e).Some?
    ensures ReserveTour(db, userId, tourId, date, tourDate, newId).result.Failure?
        <==> exists e | e in db.users[userId].reservations ::
               AreIntersecting(Occupy(db.tours[tourId], tourDate), Occupy(ResolveEntry(db, e).value, tourDate))
    ensures ReserveTour(db, userId, tourId, date, tourDate, newId).result.Failure?
        ==> ReserveTour(db, userId, tourId, date, tourDate, newId).result.error == AlreadyReserved
  {
    var entries := db.users[userId].reservations;
    var earlier := EntryTours(db, entries);
    ConflictIffSomeIntersects(Lookup(db.tours, tourId), earlier, tourDate);
    if exists e | e in entries ::
         AreIntersecting(Occupy(db.tours[tourId], tourDate), Occupy(ResolveEntry(db, e).value, tourDate)) {
      var e :| e in entries
               && AreIntersecting(Occupy(db.tours[tourId], tourDate), Occupy(ResolveEntry(db, e).value, tourDate));
      var i :| 0 <= i < |entries| && entries[i] == e;
      assert earlier[i] == ResolveEntry(db, e);
    }
  }

  /**
   * The pushed id is not an embedded reservation: once a request was
   * admitted, repeating it raises when the loop reaches the pushed id.
   */
  lemma SecondReservationRaises(db: LegacyDb, userId: Id, tourId: Id, d1: Minutes, d2: Minutes,
                                tourDate: Tour -> Minutes, id1: Id, id2: Id)
    requires id1 !in db.reservations
    requires ReserveTour(db, userId, tourId, d1, tourDate, id1).result.Success?
    requires id2 !in ReserveTour(db, userId, tourId, d1, tourDate, id1).db.reservations
    ensures ReserveTour(ReserveTour(db, userId, tourId, d1, tourDate, id1).db, userId, tourId, d2, tourDate, id2).result
         == Failure(Unhandled)
  {
    var db1 := ReserveTour(db, userId, tourId, d1, tourDate, id1).db;
    var entries := db.users[userId].reservations;
    var requested := Lookup(db.tours, tourId);
    assert db1.users[userId].reservations == entries + [PushedId(id1)];
    assert db1.tours == db.tours;
    assert EntryTours(db1, entries + [PushedId(id1)]) == EntryTours(db, entries) + [None];
    ScanAppend(requested, EntryTours(db, entries), None, tourDate);
  }
}

=== FILE: models.dfy ===
/**
 * Record shapes and field validators of src/models.py, plus the older shapes
 * of models.py that differ from them.  The validators of the two files are
 * identical line for line and are defined once here.
 *
 * A pydantic validator either returns the (possibly changed) value or raises
 * `ValueError(message)`; the model returns `Success(value)` or
 * `Failure(message)`.
 */
module Models {
  import opened Wrappers
  import opened Intervals

  /** A document id: the string form of a MongoDB ObjectId. */
  type Id = string

  datatype GeoLocation = GeoLocation(kind: string, coordinates: (real, real))

  /** A weekly schedule: a start day (days since the epoch) and time-of-day slots per weekday. */
  datatype PeriodicSchedule = PeriodicSchedule(startDate: int, days: seq<seq<Minutes>>)

  /** `dates: list[datetime] | PeriodicSchedule`. */
  datatype TourDates = Explicit(dates: seq<Minutes>) | Periodic(schedule: PeriodicSchedule)

  datatype Tour = Tour(
    name: string,
    description: string,
    location: GeoLocation,
    guideId: Id,
    rating: Option<real>,
    guideSalary: real,
    duration: real,
    dates: TourDates)

  /**
   * A user document of the current version.  `reservations` is not a field of
   * the pydantic model: it is the list the reservation handler pushes to.
   */
  datatype UserInDB = UserInDB(
    name: string,
    email: string,
    phone: string,
    hashedPassword: string,
    salt: string,
    reservationIds: seq<Id>,
    reservations: seq<Id>)

  datatype Guide = Guide(userId: Id, languages: seq<string>, rating: Option<real>, bio: string)

  /** A reservation document as the scheduler reads it. */
  datatype ReservationInDB = ReservationInDB(
    date: Minutes,
    tourId: Id,
    reviewId: Option<Id>,
    notifiedParticipants: bool,
    reviewRequests: seq<Minutes>)

  // Shapes of the older version (models.py), where a user embeds its reservations.

  datatype LegacyReservation = LegacyReservation(date: Minutes, tourId: Id)

  /**
   * An element of an older user's `reservations` list: an embedded reservation
   * as registered, or a bare reservation id as the reservation handler pushes it.
   */
  datatype ReservationEntry = Embedded(reservation: LegacyReservation) | PushedId(id: Id)

  datatype LegacyUser = LegacyUser(name: string, email: string, phone: string, reservations: seq<LegacyReservation>)

  datatype LegacyUserInDB = LegacyUserInDB(
    name: string,
    email: string,
    phone: string,
    reservations: seq<ReservationEntry>,
    hashedPassword: string,
    salt: string)

  datatype LegacyGuide = LegacyGuide(
    name: string,
    email: string,
    phone: string,
    languages: seq<string>,
    rating: real,
    bio: string)

  // ---------------------------------------------------------------------------
  // Defaults
  // ---------------------------------------------------------------------------

  function Embed(rs: seq<LegacyReservation>): (es: seq<ReservationEntry>)
    ensures |es| == |rs|
    ensures forall i | 0 <= i < |rs| :: es[i] == Embedded(rs[i])
  {
    if rs == [] then [] else [Embedded(rs[0])] + Embed(rs[1..])
  }

  /** A freshly stored user owns no reservations. */
  function NewUserInDB(name: string, email: string, phone: string, hashedPassword: string, salt: string): (u: UserInDB)
    ensures u.name == name && u.email == email && u.phone == phone
    ensures u.hashedPassword == hashedPassword && u.salt == salt
    ensures u.reservationIds == [] && u.reservations == []
  {
    UserInDB(name, email, phone, hashedPassword, salt, [], [])
  }

  /** A freshly stored reservation has notified nobody and has no review requests. */
  function NewReservationInDB(date: Minutes, tourId: Id, reviewId: Option<Id>): (r: ReservationInDB)
    ensures r.date == date && r.tourId == tourId && r.reviewId == reviewId
    ensures !r.notifiedParticipants && r.reviewRequests == []
  {
    ReservationInDB(date, tourId, reviewId, false, [])
  }

  // ---------------------------------------------------------------------------
  // Validators
  // ---------------------------------------------------------------------------

  const DaysEmptyMessage := "Days cannot be empty"
  const SalaryNegativeMessage := "Guide salary cannot be negative"
  const DurationNegativeMessage := "Duration cannot be negative"
  const DatesInPastMessage := "Dates cannot be in the past"

  /**
   * `PeriodicSchedule.validate_days` as written: it raises when the list is
   * NOT empty, so the only schedule it accepts is the empty one, although its
   * message speaks of rejecting empty lists.
   */
  function ValidateDays(days: seq<seq<Minutes>>): (r: Result<seq<seq<Minutes>>, string>)
    ensures r.Success? <==> days == []
    ensures r.Success? ==> r.value == []
    ensures r.Failure? ==> r.error == DaysEmptyMessage
  {
    if |days| != 0 then Failure(DaysEmptyMessage) else Success(days)
  }

  /** The validator its message describes: reject exactly the empty list, pass the rest through. */
  function ValidateDaysIntended(days: seq<seq<Minutes>>): (r: Result<seq<seq<Minutes>>, string>)
    ensures r.Success? <==> days != []
    ensures r.Success? ==> r.value == days
    ensures r.Failure? ==> r.error == DaysEmptyMessage
  {
    if |days| == 0 then Failure(DaysEmptyMessage) else Success(days)
  }

  /** The two day validators disagree on every input: one accepts exactly what the other rejects. */
  lemma ValidateDaysInverted(days: seq<seq<Minutes>>)
    ensures ValidateDays(days).Success? <==> ValidateDaysIntended(days).Failure?
    ensures ValidateDays([[540.0]]).Failure? && ValidateDaysIntended([[540.0]]).Success?
  {
  }

  /** A non-negativity check shared by the salary and duration validators. */
  function RejectNegative(v: real, message: string): (r: Result<real, string>)
    ensures r.Success? <==> 0.0 <= v
    ensures r.Success? ==> r.value == v
    ensures r.Failure? ==> r.error == message
  {
    if v < 0.0 then Failure(message) else Success(v)
  }

  /** `Tour.validate_guide_salary`: zero is accepted, a negative salary rejected, the value kept. */
  function ValidateGuideSalary(v: real): (r: Result<real, string>)
    ensures r.Success? <==> 0.0 <= v
    ensures r.Success? ==> r.value == v
    ensures r.Failure? ==> r.error == SalaryNegativeMessage
  {
    RejectNegative(v, SalaryNegativeMessage)
  }

  /** `Tour.validate_duration`: zero is accepted, a negative duration rejected, the value kept. */
  function ValidateDuration(v: real): (r: Result<real, string>)
    ensures r.Success? <==> 0.0 <= v
    ensures r.Success? ==> r.value == v
    ensures r.Failure? ==> r.error == DurationNegativeMessage
  {
    RejectNegative(v, DurationNegativeMessage)
  }

  /** Whether some entry of `dates` is strictly before `now`, scanning as the validator's loop does. */
  function SomeBefore(dates: seq<Minutes>, now: Minutes): (b: bool)
    ensures b <==> exists i | 0 <= i < |dates| :: dates[i] < now
  {
    if dates == [] then false
    else if dates[0] < now then true
    else
      assert forall i | 1 <= i < |dates| :: dates[i] == dates[1..][i - 1];
      SomeBefore(dates[1..], now)
  }

  /**
   * `Tour.validate_dates` with the clock reading `now`: an explicit list is
   * rejected iff some date lies strictly before now (a date equal to now and
   * the empty list pass); a periodic schedule is passed through uninspected.
   */
  function ValidateDates(v: TourDates, now: Minutes): (r: Result<TourDates, string>)
    ensures v.Periodic? ==> r == Success(v)
    ensures v.Explicit? ==> (r.Failure? <==> exists i | 0 <= i < |v.dates| :: v.dates[i] < now)
    ensures r.Success? ==> r.value == v
    ensures r.Failure? ==> r.error == DatesInPastMessage
  {
    match v
    case Explicit(dates) => if SomeBefore(dates, now) then Failure(DatesInPastMessage) else Success(v)
    case Periodic(_) => Success(v)
  }

  /**
   * Validation is idempotent: a value a validator accepted is accepted again,
   * unchanged.
   */
  lemma ValidatorsIdempotent(days: seq<seq<Minutes>>, salary: real, duration: real, dates: TourDates, now: Minutes)
    ensures ValidateDays(days).Success? ==> ValidateDays(ValidateDays(days).value) == ValidateDays(days)
    ensures ValidateGuideSalary(salary).Success?
            ==> ValidateGuideSalary(ValidateGuideSalary(salary).value) == ValidateGuideSalary(salary)
    ensures ValidateDuration(duration).Success?
            ==> ValidateDuration(ValidateDuration(duration).value) == ValidateDuration(duration)
    ensures ValidateDates(dates, now).Success?
            ==> ValidateDates(ValidateDates(dates, now).value, now) == ValidateDates(dates, now)
  {
  }

  /** An explicit date list that passed at `now` passes at every earlier clock reading too. */
  lemma DatesValidEarlier(dates: seq<Minutes>, now: Minutes, earlier: Minutes)
    requires earlier <= now
    requires ValidateDates(Explicit(dates), now).Success?
    ensures ValidateDates(Explicit(dates), earlier).Success?
  {
  }
}

=== FILE: tasks.dfy ===
/**
 * The review-request selection of src/tasks.py: the aggregation pipeline of
 * `get_non_notified_reservations` and the union and dispatch loop of
 * `request_review`.
 *
 * The pipeline runs over the reservations collection in scan order, joined
 * against the tours collection.  Each stage is one function; `SelectedIds` is
 * an independent one-pass reference and `PipelineIsFilter` connects the two.
 * Time follows the comments of the pipeline: a review request counts as
 * covering a checkpoint when it is later than the reservation's date plus the
 * tour's duration plus the checkpoint's offset.
 */
module Tasks {
  import opened Wrappers
  import opened Intervals
  import opened Models

  /** The `$dateAdd` units of fixed length. */
  datatype TimeUnit = Minute | Hour | Day | Week

  function UnitMinutes(u: TimeUnit): (m: Minutes)
    ensures 0.0 < m
  {
    match u
    case Minute => 1.0
    case Hour => MinutesPerHour
    case Day => 24.0 * MinutesPerHour
    case Week => MinutesPerWeek
  }

  /** `amount` units, in minutes. */
  function UnitOffset(u: TimeUnit, amount: int): Minutes
  {
    amount as real * UnitMinutes(u)
  }

  /** A reservation document with its `_id`, as the collection scan yields it. */
  datatype Stored = Stored(id: Id, doc: ReservationInDB)

  /** The instant a reserved tour ends: its date plus the tour's duration in hours. */
  function TourEnd(date: Minutes, duration: real): Minutes
  {
    date + HoursToMinutes(duration)
  }

  // ---------------------------------------------------------------------------
  // The pipeline, stage by stage
  // ---------------------------------------------------------------------------

  /** A row after `$lookup`, `$unwind` and the first `$project`. */
  datatype Joined = Joined(id: Id, date: Minutes, duration: real, reviewRequests: seq<Minutes>)

  /**
   * `$lookup` of the tour by `tour_id` followed by `$unwind`: a reservation
   * whose tour is not stored yields no row, and the others keep their order.
   */
  function LookupUnwind(rs: seq<Stored>, tours: map<Id, Tour>): (js: seq<Joined>)
    ensures |js| <= |rs|
  {
    if rs == [] then []
    else
      var head := rs[0];
      (if head.doc.tourId in tours
       then [Joined(head.id, head.doc.date, tours[head.doc.tourId].duration, head.doc.reviewRequests)]
       else [])
      + LookupUnwind(rs[1..], tours)
  }

  /** `$match` on `date < NOW - duration hours`: only tours that ended strictly before now. */
  function MatchEnded(js: seq<Joined>, now: Minutes): (out: seq<Joined>)
    ensures |out| <= |js|
  {
    if js == [] then []
    else (if js[0].date < now - HoursToMinutes(js[0].duration) then [js[0]] else []) + MatchEnded(js[1..], now)
  }

  /** `$size` of the `$filter` of review requests strictly later than `threshold`. */
  function CountAfter(requests: seq<Minutes>, threshold: Minutes): (n: nat)
    ensures n <= |requests|
    ensures 0 < n <==> exists i | 0 <= i < |requests| :: requests[i] > threshold
  {
    if requests == [] then 0
    else
      assert forall i | 1 <= i < |requests| :: requests[i] == requests[1..][i - 1];
      (if requests[0] > threshold then 1 else 0) + CountAfter(requests[1..], threshold)
  }

  /** A row after the second `$project`: the id and whether a request follows the checkpoint. */
  datatype Flagged = Flagged(id: Id, reservationDate: Minutes, hasAfter: bool)

  /** The second `$project`: `has_after_hour` is whether the count above is positive. */
  function ProjectHasAfter(js: seq<Joined>, offset: Minutes): (fs: seq<Flagged>)
    ensures |fs| == |js|
    ensures forall i | 0 <= i < |js| :: fs[i].id == js[i].id
  {
    if js == [] then []
    else
      var j := js[0];
      var threshold := TourEnd(j.date, j.duration) + offset;
      [Flagged(j.id, j.date, CountAfter(j.reviewRequests, threshold) > 0)] + ProjectHasAfter(js[1..], offset)
  }

  /** `$match` on `has_after_hour == false`, then `$project {}`: the ids of the rows left. */
  function MatchNoneAfter(fs: seq<Flagged>): (ids: seq<Id>)
    ensures |ids| <= |fs|
  {
    if fs == [] then []
    else (if !fs[0].hasAfter then [fs[0].id] else []) + MatchNoneAfter(fs[1..])
  }

  /** `get_non_notified_reservations(time_unit, time_amount)`, evaluated at the instant `now`. */
  function NonNotified(rs: seq<Stored>, tours: map<Id, Tour>, now: Minutes, unit: TimeUnit, amount: int): seq<Id>
  {
    MatchNoneAfter(ProjectHasAfter(MatchEnded(LookupUnwind(rs, tours), now), UnitOffset(unit, amount)))
  }

  // ---------------------------------------------------------------------------
  // The reference selection
  // ---------------------------------------------------------------------------

  /** Some recorded review request is strictly later than `threshold`. */
  predicate Covered(requests: seq<Minutes>, threshold: Minutes)
  {
    exists i | 0 <= i < |requests| :: requests[i] > threshold
  }

  /**
   * A reservation needs a request for the checkpoint `offset` minutes after
   * its tour's end: its tour is stored, the tour ended strictly before now,
   * and no request is later than end plus offset.
   */
  predicate Selected(s: Stored, tours: map<Id, Tour>, now: Minutes, offset: Minutes)
  {
    && s.doc.tourId in tours
    && TourEnd(s.doc.date, tours[s.doc.tourId].duration) < now
    && !Covered(s.doc.reviewRequests, TourEnd(s.doc.date, tours[s.doc.tourId].duration) + offset)
  }

  /** The ids of the selected reservations, in scan order, by one pass over the collection. */
  function SelectedIds(rs: seq<Stored>, tours: map<Id, Tour>, now: Minutes, offset: Minutes): (ids: seq<Id>)
    ensures forall id :: id in ids <==> exists i | 0 <= i < |rs| :: rs[i].id == id && Selected(rs[i], tours, now, offset)
  {
    if rs == [] then []
    else
      assert forall i | 1 <= i < |rs| :: rs[i] == rs[1..][i - 1];
      (if Selected(rs[0], tours, now, offset) then [rs[0].id] else []) + SelectedIds(rs[1..], tours, now, offset)
  }

  /** The staged pipeline computes exactly the one-pass selection, order and repetitions included. */
  lemma {:induction false} PipelineIsFilter(rs: seq<Stored>, tours: map<Id, Tour>, now: Minutes, offset: Minutes)
    ensures MatchNoneAfter(ProjectHasAfter(MatchEnded(LookupUnwind(rs, tours), now), offset))
         == SelectedIds(rs, tours, now, offset)
  {
    if rs != [] {
      PipelineIsFilter(rs[1..], tours, now, offset);
      var head := rs[0];
      var rest := MatchEnded(LookupUnwind(rs[1..], tours), now);
      if head.doc.tourId in tours {
        var j := Joined(head.id, head.doc.date, tours[head.doc.tourId].duration, head.doc.reviewRequests);
        assert LookupUnwind(rs, tours) == [j] + LookupUnwind(rs[1..], tours);
        assert ([j] + LookupUnwind(rs[1..], tours))[1..] == LookupUnwind(rs[1..], tours);
        if j.date < now - HoursToMinutes(j.duration) {
          assert MatchEnded(LookupUnwind(rs, tours), now) == [j] + rest;
          assert ([j] + rest)[1..] == rest;
          var f := ProjectHasAfter([j] + rest, offset);
          assert f[1..] == ProjectHasAfter(rest, offset);
        } else {
          assert MatchEnded(LookupUnwind(rs, tours), now) == rest;
        }
      } else {
        assert LookupUnwind(rs, tours) == LookupUnwind(rs[1..], tours);
      }
    }
  }

  /** Membership in `get_non_notified_reservations` is `Selected` with the unit's offset. */
  lemma NonNotifiedMembership(rs: seq<Stored>, tours: map<Id, Tour>, now: Minutes, unit: TimeUnit, amount: int, id: Id)
    ensures id in NonNotified(rs, tours, now, unit, amount)
        <==> exists i | 0 <= i < |rs| :: rs[i].id == id && Selected(rs[i], tours, now, UnitOffset(unit, amount))
  {
    PipelineIsFilter(rs, tours, now, UnitOffset(unit, amount));
  }

  // ---------------------------------------------------------------------------
  // Properties of the selection
  // ---------------------------------------------------------------------------

  /** A reservation whose tour is not stored is never selected. */
  lemma MissingTourNeverSelected(s: Stored, tours: map<Id, Tour>, now: Minutes, offset: Minutes)
    requires s.doc.tourId !in tours
    ensures !Selected(s, tours, now, offset)
  {
  }

  /** Only reservations whose tour ended strictly before now are selected, whatever the offset. */
  lemma SelectedOnlyAfterEnd(s: Stored, tours: map<Id, Tour>, now: Minutes, offset: Minutes)
    requires Selected(s, tours, now, offset)
    ensures TourEnd(s.doc.date, tours[s.doc.tourId].duration) < now
  {
  }

  /**
   * A larger offset moves the threshold later, so fewer requests cover it:
   * whatever the smaller offset selects, the larger one selects too.
   */
  lemma SelectionGrowsWithOffset(s: Stored, tours: map<Id, Tour>, now: Minutes, k1: Minutes, k2: Minutes)
    requires k1 <= k2
    requires Selected(s, tours, now, k1)
    ensures Selected(s, tours, now, k2)
  {
  }

  /** The one-hour selection is contained in the one-week selection. */
  lemma HourSelectionWithinWeek(rs: seq<Stored>, tours: map<Id, Tour>, now: Minutes)
    ensures forall id | id in NonNotified(rs, tours, now, Hour, 1) :: id in NonNotified(rs, tours, now, Week, 1)
  {
    forall id | id in NonNotified(rs, tours, now, Hour, 1)
      ensures id in NonNotified(rs, tours, now, Week, 1)
    {
      NonNotifiedMembership(rs, tours, now, Hour, 1, id);
      NonNotifiedMembership(rs, tours, now, Week, 1, id);
      var i :| 0 <= i < |rs| && rs[i].id == id && Selected(rs[i], tours, now, UnitOffset(Hour, 1));
      SelectionGrowsWithOffset(rs[i], tours, now, UnitOffset(Hour, 1), UnitOffset(Week, 1));
    }
  }

  /** `s` with one more review request recorded at `t`. */
  function WithRequest(s: Stored, t: Minutes): (s': Stored)
    ensures s'.id == s.id && s'.doc.tourId == s.doc.tourId && s'.doc.date == s.doc.date
  {
    s.(doc := s.doc.(reviewRequests := s.doc.reviewRequests + [t]))
  }

  /**
   * A request later than the checkpoint deselects the reservation; one at or
   * before it (the threshold itself included, the comparison being strict)
   * changes nothing.
   */
  lemma RequestEffect(s: Stored, tours: map<Id, Tour>, now: Minutes, offset: Minutes, t: Minutes)
    requires s.doc.tourId in tours
    ensures t > TourEnd(s.doc.date, tours[s.doc.tourId].duration) + offset
            ==> !Selected(WithRequest(s, t), tours, now, offset)
    ensures t <= TourEnd(s.doc.date, tours[s.doc.tourId].duration) + offset
            ==> (Selected(WithRequest(s, t), tours, now, offset) <==> Selected(s, tours, now, offset))
  {
    var reqs := s.doc.reviewRequests;
    var reqs' := WithRequest(s, t).doc.reviewRequests;
    assert reqs' == reqs + [t];
    assert reqs'[|reqs|] == t;
    assert forall i | 0 <= i < |reqs| :: reqs'[i] == reqs[i];
  }

  /** Two collections whose elements agree on id and on being selected give the same selection. */
  lemma {:induction false} SelectionCongruent(rs: seq<Stored>, rs': seq<Stored>, tours: map<Id, Tour>, now: Minutes, offset: Minutes)
    requires |rs| == |rs'|
    requires forall i | 0 <= i < |rs| ::
               rs[i].id == rs'[i].id && (Selected(rs[i], tours, now, offset) <==> Selected(rs'[i], tours, now, offset))
    ensures SelectedIds(rs, tours, now, offset) == SelectedIds(rs', tours, now, offset)
  {
    if rs != [] {
      SelectionCongruent(rs[1..], rs'[1..], tours, now, offset);
    }
  }

  /** Recording a request at or before a reservation's checkpoint leaves the whole selection as it was. */
  lemma EarlyRequestKeepsSelection(rs: seq<Stored>, tours: map<Id, Tour>, now: Minutes, unit: TimeUnit, amount: int,
                                   i: nat, t: Minutes)
    requires i < |rs| && rs[i].doc.tourId in tours
    requires t <= TourEnd(rs[i].doc.date, tours[rs[i].doc.tourId].duration) + UnitOffset(unit, amount)
    ensures NonNotified(rs[i := WithRequest(rs[i], t)], tours, now, unit, amount) == NonNotified(rs, tours, now, unit, amount)
  {
    var k := UnitOffset(unit, amount);
    var rs' := rs[i := WithRequest(rs[i], t)];
    RequestEffect(rs[i], tours, now, k, t);
    SelectionCongruent(rs, rs', tours, now, k);
    PipelineIsFilter(rs, tours, now, k);
    PipelineIsFilter(rs', tours, now, k);
  }

  /** Recording a request after a reservation's checkpoint removes it from the selection (ids being unique). */
  lemma LateRequestDeselects(rs: seq<Stored>, tours: map<Id, Tour>, now: Minutes, unit: TimeUnit, amount: int,
                             i: nat, t: Minutes)
    requires i < |rs| && rs[i].doc.tourId in tours
    requires forall a, b | 0 <= a < b < |rs| :: rs[a].id != rs[b].id
    requires t > TourEnd(rs[i].doc.date, tours[rs[i].doc.tourId].duration) + UnitOffset(unit, amount)
    ensures rs[i].id !in NonNotified(rs[i := WithRequest(rs[i], t)], tours, now, unit, amount)
  {
    var rs' := rs[i := WithRequest(rs[i], t)];
    RequestEffect(rs[i], tours, now, UnitOffset(unit, amount), t);
    NonNotifiedMembership(rs', tours, now, unit, amount, rs[i].id);
  }

  /**
   * A 2.5-hour tour reserved for instant 0 ends at 150.  An hour into the tour
   * it is not selected; a minute after its end it is, with no requests yet;
   * once a request is recorded after 210 the hour checkpoint is covered but
   * the week checkpoint is not.
   */
  lemma TwoAndAHalfHourScenario(tours: map<Id, Tour>, tid: Id)
    requires tid in tours && tours[tid].duration == 2.5
    ensures !Selected(Stored("r", NewReservationInDB(0.0, tid, None)), tours, 60.0, UnitOffset(Hour, 1))
    ensures Selected(Stored("r", NewReservationInDB(0.0, tid, None)), tours, 151.0, UnitOffset(Hour, 1))
    ensures !Selected(Stored("r", ReservationInDB(0.0, tid, None, false, [211.0])), tours, 300.0, UnitOffset(Hour, 1))
    ensures Selected(Stored("r", ReservationInDB(0.0, tid, None, false, [211.0])), tours, 300.0, UnitOffset(Week, 1))
  {
    assert [211.0][0] == 211.0;
  }

  // ---------------------------------------------------------------------------
  // request_review
  // ---------------------------------------------------------------------------

  /**
   * The union of the one-hour and one-week selections.  Since the hour
   * selection lies inside the week selection, the union is the week selection.
   */
  function ReviewTargets(rs: seq<Stored>, tours: map<Id, Tour>, now: Minutes): (targets: set<Id>)
    ensures forall id :: id in targets
              <==> exists i | 0 <= i < |rs| :: rs[i].id == id && Selected(rs[i], tours, now, MinutesPerWeek)
  {
    HourSelectionWithinWeek(rs, tours, now);
    PipelineIsFilter(rs, tours, now, UnitOffset(Week, 1));
    var hour := NonNotified(rs, tours, now, Hour, 1);
    var week := NonNotified(rs, tours, now, Week, 1);
    (set id | id in hour) + (set id | id in week)
  }

  /** The loop over the set of targets: every target is handled, each exactly once. */
  method DispatchAll(targets: set<Id>) returns (sent: seq<Id>)
    ensures forall id :: id in sent <==> id in targets
    ensures forall a, b | 0 <= a < b < |sent| :: sent[a] != sent[b]
    ensures |sent| == |targets|
  {
    sent := [];
    var remaining := targets;
    while remaining != {}
      invariant remaining <= targets
      invariant forall id :: id in sent <==> id in targets && id !in remaining
      invariant forall a, b | 0 <= a < b < |sent| :: sent[a] != sent[b]
      invariant |sent| + |remaining| == |targets|
      decreases remaining
    {
      var id :| id in remaining;
      sent := sent + [id];
      remaining := remaining - {id};
    }
  }

  /**
   * `request_review` at the instant `now`: a review request goes out exactly
   * once for each reservation the week selection holds.  The run takes the
   * collections as values and returns only what it sent: it records nothing
   * in `review_requests`, so a second run at the same instant selects the
   * same reservations again.
   */
  method RequestReview(rs: seq<Stored>, tours: map<Id, Tour>, now: Minutes) returns (sent: seq<Id>)
    ensures forall id :: id in sent
              <==> exists i | 0 <= i < |rs| :: rs[i].id == id && Selected(rs[i], tours, now, MinutesPerWeek)
    ensures forall a, b | 0 <= a < b < |sent| :: sent[a] != sent[b]
  {
    var targets := ReviewTargets(rs, tours, now);
    sent := DispatchAll(targets);
  }
}

=== FILE: utils.dfy ===
/**
 * The string helpers of utils.py: `verify_id`, `validate_email` and
 * `normalize_id`.
 */
module Utils {

  // ---------------------------------------------------------------------------
  // verify_id
  // ---------------------------------------------------------------------------

  const ObjectIdLength: nat := 24

  /** Membership in Python's `string.hexdigits`. */
  predicate IsHexDigit(c: char)
  {
    '0' <= c <= '9' || 'a' <= c <= 'f' || 'A' <= c <= 'F'
  }

  /**
   * `verify_id`: every character is a hex digit and there are exactly 24 of
   * them, i.e. the string is the hex form of a 12-byte ObjectId.
   */
  predicate VerifyId(s: string)
  {
    (forall c | c in s :: IsHexDigit(c)) && |s| == ObjectIdLength
  }

  /** A byte value. */
  type Byte = x: int | 0 <= x < 256

  /** The 12 bytes of a MongoDB ObjectId. */
  type ObjectIdBytes = b: seq<Byte> | |b| == 12 witness [0, 0, 0, 0, 0, 0, 0, 0, 0, 0, 0, 0]

  const LowerHexDigits := "0123456789abcdef"

  /** Lower-case hex rendering of a byte string, two digits per byte, as `str(ObjectId)` renders it. */
  function Hex(b: seq<Byte>): (s: string)
    ensures |s| == 2 * |b|
  {
    if b == [] then []
    else [LowerHexDigits[b[0] / 16], LowerHexDigits[b[0] % 16]] + Hex(b[1..])
  }

  /** Every character of a rendered byte string is a hex digit. */
  lemma {:induction false} HexDigitsOnly(b: seq<Byte>)
    ensures forall c | c in Hex(b) :: IsHexDigit(c)
  {
    if b != [] {
      HexDigitsOnly(b[1..]);
      assert forall i | 0 <= i < 16 :: IsHexDigit(LowerHexDigits[i]);
    }
  }

  /** The string form of every ObjectId passes `verify_id`. */
  lemma RenderedIdsVerify(b: ObjectIdBytes)
    ensures VerifyId(Hex(b))
  {
    HexDigitsOnly(b);
  }

  /** Among strings of hex digits, `verify_id` accepts exactly those of length 24. */
  lemma HexStringVerifiesIffLength(s: string)
    requires forall c | c in s :: IsHexDigit(c)
    ensures VerifyId(s) <==> |s| == ObjectIdLength
  {
  }

  /** Examples: 24 hex digits in either case pass; 23 or 25 digits, or a non-hex character, fail. */
  lemma VerifyIdExamples()
    ensures VerifyId("0123456789abcdefABCDEF01")
    ensures !VerifyId("0123456789abcdefABCDEF0")
    ensures !VerifyId("0123456789abcdefABCDEF012")
    ensures !VerifyId("0123456789abcdefABCDEF0g")
  {
    var bad := "0123456789abcdefABCDEF0g";
    assert bad[23] in bad && !IsHexDigit(bad[23]);
  }

  // ---------------------------------------------------------------------------
  // validate_email: re.match(r"[^@]+@[^@]+\.[^@]+", email)
  // ---------------------------------------------------------------------------

  /** No character of `s[lo..hi]` is an `@`. */
  predicate AtFree(s: string, lo: int, hi: int)
    requires 0 <= lo <= hi <= |s|
  {
    forall k | lo <= k < hi :: s[k] != '@'
  }

  /**
   * A match of the pattern at the start of `s`, with the `@` at `at`, the
   * literal dot at `dot` and the match ending at `end`: three non-empty
   * `@`-free runs separated by `@` and `.`.  Anything may follow `end`.
   */
  predicate MatchAt(s: string, at: int, dot: int, end: int)
  {
    && 0 < at < dot < end <= |s|
    && at + 1 < dot && dot + 1 < end
    && s[at] == '@' && s[dot] == '.'
    && AtFree(s, 0, at) && AtFree(s, at + 1, dot) && AtFree(s, dot + 1, end)
  }

  /** Whether the regular expression matches at the start of `s`. */
  ghost predicate EmailPatternMatches(s: string)
  {
    exists at, dot, end :: MatchAt(s, at, dot, end)
  }

  /** The index of the first `@` at or after `from`, or `|s|` when there is none. */
  function NextAt(s: string, from: nat): (r: nat)
    requires from <= |s|
    ensures from <= r <= |s|
    ensures AtFree(s, from, r)
    ensures r < |s| ==> s[r] == '@'
    decreases |s| - from
  {
    if from == |s| || s[from] == '@' then from else NextAt(s, from + 1)
  }

  /** The index of the first `.` in `s[lo..hi]`, or `hi` when there is none. */
  function NextDot(s: string, lo: nat, hi: nat): (r: nat)
    requires lo <= hi <= |s|
    ensures lo <= r <= hi
    ensures forall k | lo <= k < r :: s[k] != '.'
    ensures r < hi ==> s[r] == '.'
    decreases hi - lo
  {
    if lo == hi || s[lo] == '.' then lo else NextDot(s, lo + 1, hi)
  }

  /**
   * `validate_email`, decided by scanning: the first `@` must not be the first
   * character, and the `@`-free run after it must hold a dot with at least
   * one character on each side.
   */
  function ValidateEmail(s: string): (ok: bool)
  {
    var at := NextAt(s, 0);
    if at == 0 || at == |s| then false
    else
      var runEnd := NextAt(s, at + 1);
      at + 2 < runEnd && NextDot(s, at + 2, runEnd - 1) < runEnd - 1
  }

  /** The scanner accepts exactly the strings the regular expression matches. */
  lemma ValidateEmailMatchesPattern(s: string)
    ensures ValidateEmail(s) <==> EmailPatternMatches(s)
  {
    var at := NextAt(s, 0);
    if ValidateEmail(s) {
      var runEnd := NextAt(s, at + 1);
      var dot := NextDot(s, at + 2, runEnd - 1);
      assert MatchAt(s, at, dot, dot + 2);
    }
    if EmailPatternMatches(s) {
      var a, d, e :| MatchAt(s, a, d, e);
      assert s[a] == '@';
      assert at == a;
      var runEnd := NextAt(s, at + 1);
      assert AtFree(s, a + 1, e) by {
        forall k | a + 1 <= k < e ensures s[k] != '@' {
          if k < d {} else if k == d {} else {}
        }
      }
      assert e <= runEnd;
      var found := NextDot(s, at + 2, runEnd - 1);
      assert found <= d;
    }
  }

  /** `re.match` is unanchored at the end: whatever follows a matching address keeps it matching. */
  lemma EmailMatchSurvivesSuffix(s: string, suffix: string)
    requires EmailPatternMatches(s)
    ensures EmailPatternMatches(s + suffix)
  {
    var a, d, e :| MatchAt(s, a, d, e);
    assert MatchAt(s + suffix, a, d, e);
  }

  /** The test suite's address matches; so does one with trailing text after the domain. */
  lemma EmailExamplesAccepted()
    ensures ValidateEmail("a@gmail.com")
    ensures ValidateEmail("a@b.c@d")
  {
    ValidateEmailMatchesPattern("a@gmail.com");
    assert MatchAt("a@gmail.com", 1, 7, 9);
    ValidateEmailMatchesPattern("a@b.c@d");
    assert MatchAt("a@b.c@d", 1, 3, 5);
  }

  /** An empty local part or a domain without a dot does not match. */
  lemma EmailExamplesRejected()
    ensures !ValidateEmail("@gmail.com")
    ensures !ValidateEmail("a@gmail")
  {
    ValidateEmailMatchesPattern("a@gmail");
    var s := "a@gmail";
    assert forall k | 0 <= k < |s| :: s[k] != '.';
  }

  // ---------------------------------------------------------------------------
  // normalize_id
  // ---------------------------------------------------------------------------

  /**
   * A field value of a stored document: a string, an ObjectId, or any other
   * value, represented by the text `str()` gives for it.
   */
  datatype Value = Str(s: string) | Oid(bytes: ObjectIdBytes) | Other(repr: string)

  type Document = map<string, Value>

  const IdKey := "_id"

  /** Python's `str()` of a field value. */
  function Stringify(v: Value): string
  {
    match v
    case Str(s) => s
    case Oid(b) => Hex(b)
    case Other(r) => r
  }

  /**
   * `normalize_id`: the same keys, every field but `_id` untouched, and `_id`
   * (when present) replaced by its string form.
   */
  function NormalizeId(d: Document): (r: Document)
    ensures r.Keys == d.Keys
    ensures forall k | k in d && k != IdKey :: r[k] == d[k]
    ensures IdKey in d ==> r[IdKey] == Str(Stringify(d[IdKey]))
  {
    map k | k in d :: if k != IdKey then d[k] else Str(Stringify(d[k]))
  }

  /** Normalising twice is normalising once. */
  lemma NormalizeIdIdempotent(d: Document)
    ensures NormalizeId(NormalizeId(d)) == NormalizeId(d)
  {
  }

  /** A normalised ObjectId `_id` is a string that passes `verify_id`. */
  lemma NormalizedObjectIdVerifies(d: Document)
    requires IdKey in d && d[IdKey].Oid?
    ensures NormalizeId(d)[IdKey].Str? && VerifyId(NormalizeId(d)[IdKey].s)
  {
    RenderedIdsVerify(d[IdKey].bytes);
  }
}

=== FILE: wrappers.dfy ===
/** Failure-carrying values shared by every module of the model. */
module Wrappers {

  /** A value that may be absent: the result of a point lookup by id. */
  datatype Option<+T> = None | Some(value: T)

  /** Either a value or the error that replaced it (a raised exception). */
  datatype Result<+T, +E> = Success(value: T) | Failure(error: E)

  /** Point lookup in a map, absent keys giving `None`. */
  function Lookup<K, V>(m: map<K, V>, k: K): (r: Option<V>)
    ensures r.Some? <==> k in m
    ensures r.Some? ==> r.value == m[k]
  {
    if k in m then Some(m[k]) else None
  }
}
